=== FILE: README.md ===
# vmware-openapi-generator utilities, modelled in Dafny

The vmware-openapi-generator turns vAPI metamodel descriptions of VMware
services into OpenAPI/Swagger documents. Its helper module `lib/utils.py`
holds the pure transforms the generator applies while it assembles each
path object:

- reconciling the `{placeholder}`s of a URL with the operation's parameters;
- splitting parameter lists into body, query and other parameters;
- building a path object, hoisting a request-body reference out of its
  parameter list, and adding the basic-auth requirement to the session login;
- small string utilities (query parameters, braces, camel case);
- mapping metamodel types to Swagger types;
- merging dictionaries of lists and rewriting `$ref` strings in JSON values;
- the vAPI-error to HTTP-status tables of `HttpErrorMap`.

This project restates each of these as pure Dafny functions over immutable
datatypes and proves what they compute.

The modules are:

- `Wrappers` — `Option`.
- `Seqs` — subsequences, Python's `list.remove`, and a stable partition.
- `Text` — Python's `str.find`, `str.replace`, `str.split`, `str.join` and
  ASCII `lower`.
- `Params` — the parameter model (`Param`, metadata annotations) and the
  body/query splits.
- `PathParams` — `extract_path_parameters` and `is_param_path_variable`.
- `PathParamsExamples` — worked instances of that module, including the
  docstring example and a collision of two rewrites.
- `TypeMap` — type conversion and built-in type names.
- `ErrorMap` — `HttpErrorMap`.
- `JsonValue` — a JSON value type, `recursive_ref_update` and
  `combine_dicts_with_list_values`.
- `PathObject` — `build_path`, `tags_from_service_name`,
  `create_req_body_from_params_list` and `add_basic_auth`.
- `StringUtils` — `add_query_param`, `remove_curly_braces` and
  `get_str_camel_case`.

Where a Python call raises an exception that the source does not catch,
the model states the input condition that avoids it as a precondition:

- `KeyError` on a `PathVariable` annotation without a `value` element.
- `ValueError` from `int()` on a non-numeric error code.
- `re.error` from `get_str_camel_case` when it is called without delimiters.

`extract_path_parameters` is meant to print a message for each
placeholder that no parameter serves. The model returns these
placeholders instead, in the `unmatched` field of its result.

Some facts about the code that the model keeps:

- The built-in type set has twelve names, including `datetime` and
  `exception`.
- The static error table has twenty-five entries.
- The codes read from the error structures go into a separate
  `error_api_map` and never override `error_rest_map`.
- The type converter's fallback returns the lower-cased input.
- A non-numeric code is not skipped: `int()` raises `ValueError`, which
  escapes.

## Model

| member | source | states |
|---|---|---|
| Params.IsFiltered | lib/utils.py:63-70 | filtered exactly when the metadata has no TechPreview and has Changing or Proposed; never for empty metadata |
| Params.ExtractBodyParameters | lib/utils.py:229-237 | a parameter is in the first list iff it is an input parameter with a Body or BodyField annotation, and in the second iff it is one without; the two lists together are a permutation of the input, and each keeps the input order |
| Params.ExtractQueryParameters | lib/utils.py:240-248 | the same order-preserving split, by the Query annotation |
| Seqs.Partition | lib/utils.py:232-236 | the stable two-way split used by both extractions: a permutation of the input, with each side satisfying its test and in the input order |
| Seqs.RemoveFirst | lib/utils.py:126 | `list.remove` shortens the list by one exactly when the element occurs, and adds nothing |
| Seqs.RemoveFirstMultiset | lib/utils.py:126 | removing a present element takes away exactly one copy of it |
| Seqs.RemoveFirstAt | lib/utils.py:113-119 | when the inner loop stops at the first match, `remove` deletes exactly that index |
| PathParams.MatchesFrom | lib/utils.py:106-110 | the `{(.+?)}` matches are well placed, in URL order and non-overlapping, and a text without `{` has none |
| PathParams.MatchesFromComplete | lib/utils.py:106-110 | the scan misses nothing: a `{` followed by a non-newline character and, before any newline, a `}`, that lies inside no earlier match, starts a match whose group runs to the next `}` |
| PathParams.Placeholders | lib/utils.py:110-111 | the group text of each match, in URL order |
| PathParams.PathVariableValue | lib/utils.py:133-135 | there is an override name exactly when the parameter has a PathVariable annotation |
| PathParams.IsParamPathVariable | lib/utils.py:130-135 | a parameter serves a placeholder iff its name is the placeholder or its PathVariable value is |
| PathParams.FindPathVariable | lib/utils.py:113-119 | returns the least index of a pooled parameter serving the placeholder, and nothing exactly when none serves it |
| PathParams.Step | lib/utils.py:111-126 | one placeholder step keeps every pooled PathVariable annotation well formed and only appends to the path parameters, the matched and the unmatched placeholders, the first two in step |
| PathParams.Reconcile | lib/utils.py:110-126 | the loop over the placeholders keeps the same two facts |
| PathParams.StepKeepsPoolInvariant | lib/utils.py:113-126 | one placeholder step keeps the pool plus the path parameters a permutation of the input, the pool in input order, and every path parameter serving its placeholder |
| PathParams.StepKeepsPlaceholderInvariant | lib/utils.py:113-126 | one step keeps the matched and unmatched placeholders a split of those seen so far, with no pooled parameter serving an unmatched one |
| PathParams.ReconcileKeepsPoolInvariant | lib/utils.py:110-126 | the loop over all placeholders keeps the pool invariant |
| PathParams.ReconcileKeepsPlaceholderInvariant | lib/utils.py:110-126 | the loop keeps the placeholder invariant |
| PathParams.ExtractPathParameters | lib/utils.py:95-127 | the path parameters and the remaining parameters together are a permutation of the input; the remaining ones keep the input order; the i-th path parameter serves the i-th matched placeholder; no remaining parameter serves an unmatched placeholder; the matched and unmatched placeholders split the URL's placeholders, each in URL order |
| PathParams.StepTakesFirstMatch | lib/utils.py:113-126 | a placeholder goes to the first pooled parameter serving it. That parameter is appended to the path parameters and exactly its index leaves the pool. The URL changes only when the names differ, by replacing every `{placeholder}` with `{name}` |
| PathParams.StepWithoutMatch | lib/utils.py:120-123 | a placeholder no pooled parameter serves is reported and changes nothing else |
| PathParams.ExtractWithoutPlaceholders | lib/utils.py:106-127 | a URL without placeholders (one without `{`, say) comes back unchanged, and all parameters stay in the pool |
| PathParams.ReconcileEmptyPool | lib/utils.py:110-123 | with an empty pool, every remaining placeholder is reported and nothing else changes |
| PathParams.ExtractWithoutParams | lib/utils.py:107-127 | with no parameters the URL is unchanged and every placeholder is reported |
| PathParams.ReconcileNamesAgree | lib/utils.py:116-118 | the loop changes the URL only when some matched parameter's name differs from its placeholder |
| PathParams.ExtractKeepsUrlWhenNamesAgree | lib/utils.py:116-118 | when every matched parameter bears its placeholder's name, the URL is returned unchanged |
| PathParamsExamples.LonePlaceholder | lib/utils.py:106-111 | text without `{` followed by one `{name}` token has exactly that placeholder |
| PathParamsExamples.LonePlaceholderRewritten | lib/utils.py:113-127 | a PathVariable-annotated parameter named differently is matched and the token is renamed |
| PathParamsExamples.ResourcePoolExample | lib/utils.py:100-102 | `/vcenter/resource-pool/{resource-pool}` becomes `/vcenter/resource-pool/{resource_pool}` |
| PathParamsExamples.TwoPlaceholders | lib/utils.py:106-111 | a URL of shape `{x}/{y}` has placeholders x and y |
| PathParamsExamples.CollisionFirstStep | lib/utils.py:113-126 | the first rewrite of the `{a}/{b}` example renames `{a}` to `{b}` |
| PathParamsExamples.CollisionSecondStep | lib/utils.py:113-126 | the second rewrite then renames both `{b}` tokens to `{c}` |
| PathParamsExamples.RewritesCanCollide | lib/utils.py:116-118 | two global rewrites can collide: the result `{c}/{c}` names one path parameter twice and the other not at all |
| TypeMap.MetamodelToSwaggerType | lib/utils.py:251-278 | the ten-entry table applied to the lower-cased type, with fallback (lower-cased type, no format) |
| TypeMap.SwaggerTypeIgnoresCase | lib/utils.py:257 | types that lower-case alike convert alike |
| TypeMap.SwaggerTypeOfLowered | lib/utils.py:257 | converting the lower-cased type gives the same result |
| TypeMap.SwaggerTypeExamples | lib/utils.py:257-278 | `LONG` gives (integer, int64), `Date_Time` gives (string, date-time), an unknown name gives its lower-case form with no format |
| TypeMap.IsTypeBuiltin | lib/utils.py:281-298 | built in iff the name equals one of the twelve names up to ASCII case |
| TypeMap.BuiltinNamesAreLowerCase | lib/utils.py:283-295 | every name of the set is already lower case |
| TypeMap.BuiltinExamples | lib/utils.py:281-298 | `DateTime`, `LONG` and `Exception` are built in; `date_time` and `dynamic_structure` are not |
| ErrorMap.ErrorRestMapSpecial | lib/utils.py:323-347 | not_found and operation_not_found give 404, internal_server_error 500, service_unavailable 503, timed_out 504, unauthenticated 401, unauthorized 403 |
| ErrorMap.ErrorRestMapDefault | lib/utils.py:323-347 | every other entry of the static table gives 400 |
| ErrorMap.DecimalValue | lib/utils.py:354 | `int()` of an n-digit string is below 10^n, and at least 10^(n-1) when the string does not start with `0` |
| ErrorMap.DecimalRoundTrip | lib/utils.py:354 | `int()` of the decimal spelling of a number is that number |
| ErrorMap.DecimalStringOfValue | lib/utils.py:354 | the decimal spelling of `int()` of a digit string without leading zeros is that string |
| ErrorMap.ResponseCode | lib/utils.py:352-353 | a structure has a code exactly when its metadata has a Response annotation with a code element |
| ErrorMap.ErrorApiMap | lib/utils.py:349-356 | a structure is a key iff it has a Response code, and every value is non-negative |
| ErrorMap.ErrorApiMapReadsCode | lib/utils.py:353-354 | a structure whose code spells n maps to n |
| ErrorMap.NewHttpErrorMap | lib/utils.py:320-356 | the static table is kept as is; the dynamic map has exactly the structures that carry a code, and no others |
| ErrorMap.NotFoundWithoutStructures | lib/utils.py:331 | with no structures, not_found still maps to 404 and the dynamic map is empty |
| JsonValue.RefUpdate | lib/utils.py:73-82 | the set of keys is preserved; a string value ending with the old text has every occurrence replaced, any other string is kept, and a nested dictionary is updated the same way |
| JsonValue.RefUpdateValue | lib/utils.py:74-82 | every value keeps its kind; a string ending with the old text has every occurrence replaced, and is otherwise kept; a dictionary is updated recursively; a list keeps its length and each item is updated as an item; numbers, booleans and null are untouched |
| JsonValue.RefUpdateItem | lib/utils.py:77-80 | a dictionary inside a list is updated recursively, with its keys kept; any other item is untouched |
| JsonValue.RefUpdateRenamesEveryOccurrence | lib/utils.py:75-76 | a string ending with a non-empty old text is cut at every occurrence and rejoined with the new text |
| JsonValue.RefUpdateSingleString | lib/utils.py:75-76 | a one-entry dictionary whose string ends with the old text gets that string replaced |
| JsonValue.RefUpdateReachesNestedObject | lib/utils.py:81-82 | a `$ref` inside a dictionary nested in the document is renamed |
| JsonValue.RefUpdateReachesListItem | lib/utils.py:77-80 | a `$ref` inside a dictionary that is an item of a list is renamed |
| JsonValue.RefUpdateSameText | lib/utils.py:73-82 | replacing a text by itself changes nothing |
| JsonValue.RefUpdateWithoutTarget | lib/utils.py:75-76 | when no reachable string ends with the old text, nothing changes |
| JsonValue.RefUpdateOfRef | lib/utils.py:75-76 | a `$ref` ending in the old name (that occurs nowhere earlier) is renamed at its end |
| JsonValue.ReplaceSuffix | lib/utils.py:76 | `replace` of a suffix that occurs only at the end rewrites just that suffix |
| JsonValue.CombineDictsWithListValues | lib/utils.py:85-92 | the keys are the union; keys only in `extended` keep their list; keys only in `added` take the added list as is; each shared key holds exactly the union of the elements |
| JsonValue.CombineTwiceSameElements | lib/utils.py:85-92 | merging the same additions twice yields the same elements per key as merging once |
| PathObject.TagsFromServiceName | lib/utils.py:193-199 | the tags are always a one-element list |
| PathObject.TagsAfterNamespace | lib/utils.py:199 | for `a.b.c.rest`, the tag is `rest` with every `.` turned into `/` |
| PathObject.TagsOfVm | lib/utils.py:150 | `com.vmware.vcenter.VM` gives the tag `VM` |
| PathObject.TagsOfFewSegments | lib/utils.py:199 | a name with at most two dots (at most three segments) gives the empty tag |
| PathObject.PathKeyNamesDistinct | lib/utils.py:161-181 | the keys `build_path` sets, and `requestBody` and `security`, are spelled differently from one another, so a map over the key type stands for the dictionary without merging entries |
| PathObject.BuildPath | lib/utils.py:138-182 | tags are always set; every other key is present iff its argument is not None, with exactly that value, so no entry holds None; requestBody and security are never set |
| PathObject.BuildPathTags | lib/utils.py:161 | the tags entry is the one-element list of the service name's tag |
| PathObject.BuildPathWithMethodAndPath | lib/utils.py:160-182 | with only a method and a path supplied, the object holds exactly tags, method and path |
| PathObject.FirstRequestBodyRef | lib/utils.py:305-309 | the least index of a parameter whose `$ref` starts with `#/components/requestBodies/`, and nothing exactly when there is none |
| PathObject.CreateReqBodyFromParamsList | lib/utils.py:301-312 | without such a parameter the object is unchanged. Otherwise requestBody becomes `{$ref: that ref}`, exactly the first such entry is deleted with the rest in order, and no other key changes. A list whose every item the search can examine stays one |
| PathObject.CreateReqBodyRemovesOneEntry | lib/utils.py:312 | the parameter list loses exactly one entry, and what remains was all in the original list |
| PathObject.CreateReqBodyWithSingleRef | lib/utils.py:301-312 | with exactly one request-body reference, it becomes the requestBody and a second call changes nothing |
| PathObject.AddBasicAuth | lib/utils.py:222-226 | the session-login POST gains the basic-auth security requirement; every other path object is returned unchanged |
| PathObject.AddBasicAuthIdempotent | lib/utils.py:222-226 | applying it twice equals applying it once |
| PathObject.BuiltSessionLoginRequiresBasicAuth | lib/utils.py:224-225 | a built session-login POST ends up with the basic-auth requirement |
| PathObject.BuiltOtherPathHasNoSecurity | lib/utils.py:224-226 | a built object for any other path ends up with no security entry |
| StringUtils.AddQueryParamAsWritten | lib/utils.py:202-219 | as written: with no `?`, appends `?param`; with a `?` whose query part holds the parameter, keeps the URL; otherwise appends `&param`. The result always starts with the URL |
| StringUtils.AsWrittenIdempotent | lib/utils.py:202-219 | the as-written version applied twice equals applying it once |
| StringUtils.AsWrittenQuestionMarkLast | lib/utils.py:213-214 | as written, `/x?` with `a=1` gives `/x?&a=1`; corrected, it gives `/x?a=1` |
| StringUtils.AddQueryParam | lib/utils.py:202-219 | with no `?`, appends `?param`; after a `?` that is the last character, appends the parameter. The URL is always a prefix of the result, and the result always holds the parameter in its query part |
| StringUtils.AddQueryParamAfterQuery | lib/utils.py:212-219 | with a `?` before the last character, the URL is kept when its query part already holds the parameter, and gets `&param` otherwise |
| StringUtils.AddQueryParamIdempotent | lib/utils.py:202-219 | applying it twice equals applying it once |
| StringUtils.AlreadyAdded | lib/utils.py:215-216 | a URL whose query part already holds the parameter is returned unchanged |
| StringUtils.AsWrittenAgreesUnlessQuestionMarkLast | lib/utils.py:211-219 | unless the first `?` is the last character, the as-written and corrected versions agree |
| StringUtils.ReplaceCharByNothing | lib/utils.py:187 | replacing a character by the empty string deletes every copy of it and nothing else |
| StringUtils.RemoveCurlyBraces | lib/utils.py:185-190 | the name with every `{` and then every `}` deleted; the result holds no brace |
| StringUtils.RemoveCurlyBracesIdempotent | lib/utils.py:185-190 | applying it twice equals applying it once |
| StringUtils.GetStrCamelCase | lib/utils.py:57-60 | a character-by-character description of the result: delimiters are dropped, and the character after each delimiter and at the start is upper-cased |
| StringUtils.CamelCharsIsCamelJoin | lib/utils.py:58-60 | that description equals splitting on the delimiters, capitalising each piece and concatenating |
| StringUtils.SplitAny | lib/utils.py:59 | `re.split` on single-character delimiters gives one more piece than there are delimiters, and no piece holds a delimiter |
| StringUtils.Capitalize | lib/utils.py:59 | `word[:1].upper() + word[1:]` keeps the length, upper-cases the first character and keeps the rest |
| StringUtils.CamelCharsDropsDelimiters | lib/utils.py:57-60 | no delimiter is left, and the result is shorter than the input by exactly the number of delimiters |
| Text.FindChar | lib/utils.py:211 | `find` gives the first index of the character, and nothing exactly when it is absent |
| Text.Replace | lib/utils.py:76 | `replace` by a text of the same length keeps the length |
| Text.ReplaceSkipsPrefix | lib/utils.py:117 | a prefix without the old text's first character is copied, and the rest is replaced |
| Text.Split | lib/utils.py:199 | `split` gives at least one piece |
| Text.SplitCount | lib/utils.py:199 | `split` on one character gives one more piece than there are copies of it |
| Text.Join | lib/utils.py:199 | `join` starts with the first piece |
| Text.ReplaceIsJoinOfSplit | lib/utils.py:199 | `replace` equals splitting on the old text and joining with the new |
| Text.SplitJoinRoundTrip | lib/utils.py:199 | joining the pieces of a split with its separator gives back the text |
| Text.SplitLeadingSegment | lib/utils.py:199 | splitting at a first separator yields the text before it, followed by the split of the rest |
| Text.ReplaceAbsentIsIdentity | lib/utils.py:186-189 | `replace` of an absent non-empty text changes nothing, so the `in` guards make no difference |
| Text.ReplaceSameText | lib/utils.py:76 | replacing a text by itself changes nothing |
| Text.Lower | lib/utils.py:257 | lower-casing keeps the length and maps each character by itself |
| Text.LowerIdempotent | lib/utils.py:282 | lower-casing twice equals lower-casing once |

## Left out

- `get_json` (lib/utils.py:19-31) is not modelled. It is network I/O.
- `write_json_data_to_file` (lib/utils.py:34-39) is not modelled. It is file I/O.
- `load_description` (lib/utils.py:42-54) is not modelled. It returns constant prose.
- `eprint` (lib/utils.py:15-16) is not modelled, and neither is the `print` in `HttpErrorMap`, because both are meant only to print diagnostics.
  - Line 16, `print(args, file=sys.stderr, kwargs)`, is not valid Python: a positional argument follows a keyword argument, so the module as written does not compile. The model follows the evident intent, a report to standard error.
  - The diagnostic of `extract_path_parameters` is modelled instead as its list of unmatched placeholders.
  - The `print` of `HttpErrorMap` corresponds to the structures missing from the dynamic map.
- The `component_svc.get('com.vmware.vapi')` lookup (lib/utils.py:349) is not modelled, because it is a foreign service object. The error structures are a parameter of `ErrorMap.NewHttpErrorMap`.
- Object identity and in-place mutation are not modelled.
  - `list.remove` and membership use value equality.
  - `combine_dicts_with_list_values` shares the added list with the caller.
  - `recursive_ref_update` mutates its argument.
  - Every function here returns a new value instead.
- The order of dictionary keys is not modelled. Maps are unordered.
- Full regular-expression semantics are not modelled. Only the `{(.+?)}` scan is, including that `.` does not match a newline.
- Characters outside ASCII are not modelled. `lower` and `upper` change ASCII letters only.
- StringUtils.GetStrCamelCase: it requires at least one delimiter, each a single non-alphanumeric character.
  - The source builds a regular expression from the escaped delimiters.
  - With none, that expression is invalid.
  - A longer delimiter, or a letter, changes the meaning of the escape.
- PathParams.ExtractPathParameters: it requires every PathVariable annotation to carry a `value` element. The source raises KeyError only when it consults an annotation without one, that is, for a parameter whose name differs from the placeholder.
- ErrorMap.ErrorApiMap: it requires every Response code to be a non-empty string of ASCII digits. `int()` also accepts signs, surrounding whitespace and underscores, and non-ASCII Unicode decimal digits, and raises ValueError on any other ASCII text.
- ErrorMap.NewHttpErrorMap: the static table has twenty-five entries, but no lemma counts them.
- JsonValue.CombineDictsWithListValues: a merged entry is a set of elements. Python's `list(set(...))` has no specified order.
  - The elements of a key present in both dictionaries must be hashable: `set(...)` raises TypeError on a dictionary or list element, while the model merges any element type.
  - `extended.get(k, None)` treats a key mapped to `None` as absent and replaces its value by the added list. A `ListValue` is never `None`, so the model does not express this case.
- PathObject.CreateReqBodyFromParamsList: it requires a `parameters` key whose value the search gets through without raising: a falsy value, a string, or a list whose items up to the first request-body reference are each a dictionary whose `$ref`, where present, is a string, a string not containing `$ref`, or a list not holding the string `$ref`. The source raises on a truthy number or dictionary, and on any other item it reaches.
- PathObject.CreateReqBodyWithSingleRef: it requires every item of the list to be one the search can examine, so that the second call is defined as well.
- PathObject.AddBasicAuth: it requires a `path` key, and a `method` key whenever the path is the session path. The `and` in the source reads the method only then.
- JsonValue.RefUpdateValue: JSON numbers are integers. Values outside the six JSON kinds are not modelled.

## Findings

| source | as written | input that shows it | evidently intended | confidence | as-written member | corrected member |
|---|---|---|---|---|---|---|
| lib/utils.py:213 | `query_index == len(url)`, which no index returned by `find` can satisfy, so the branch is dead | url `/x?`, param `a=1` gives `/x?&a=1` | `query_index == len(url) - 1`, giving `/x?a=1` | not executed; the dead branch follows from `find` returning an index below the length | StringUtils.AsWrittenQuestionMarkLast | StringUtils.AddQueryParam |

=== FILE: error_map.dfy ===
/**
 `HttpErrorMap`: the static table from the standard vAPI error types to
 HTTP status codes, and the separate table read from the `Response`
 annotations of the declared error structures.
 */
module ErrorMap {
  import opened Wrappers
  import opened Params

  const BadRequest := 400
  const Unauthorized := 401
  const Forbidden := 403
  const NotFound := 404
  const InternalServerError := 500
  const ServiceUnavailable := 503
  const GatewayTimeout := 504

  /** `error_rest_map`: the 25 standard error types and their status codes. */
  const ErrorRestMap: map<string, int> := map[
    "com.vmware.vapi.std.errors.already_exists" := BadRequest,
    "com.vmware.vapi.std.errors.already_in_desired_state" := BadRequest,
    "com.vmware.vapi.std.errors.feature_in_use" := BadRequest,
    "com.vmware.vapi.std.errors.internal_server_error" := InternalServerError,
    "com.vmware.vapi.std.errors.invalid_argument" := BadRequest,
    "com.vmware.vapi.std.errors.invalid_element_configuration" := BadRequest,
    "com.vmware.vapi.std.errors.invalid_element_type" := BadRequest,
    "com.vmware.vapi.std.errors.invalid_request" := BadRequest,
    "com.vmware.vapi.std.errors.not_found" := NotFound,
    "com.vmware.vapi.std.errors.operation_not_found" := NotFound,
    "com.vmware.vapi.std.errors.not_allowed_in_current_state" := BadRequest,
    "com.vmware.vapi.std.errors.resource_busy" := BadRequest,
    "com.vmware.vapi.std.errors.resource_in_use" := BadRequest,
    "com.vmware.vapi.std.errors.resource_inaccessible" := BadRequest,
    "com.vmware.vapi.std.errors.service_unavailable" := ServiceUnavailable,
    "com.vmware.vapi.std.errors.timed_out" := GatewayTimeout,
    "com.vmware.vapi.std.errors.unable_to_allocate_resource" := BadRequest,
    "com.vmware.vapi.std.errors.unauthenticated" := Unauthorized,
    "com.vmware.vapi.std.errors.unauthorized" := Forbidden,
    "com.vmware.vapi.std.errors.unexpected_input" := BadRequest,
    "com.vmware.vapi.std.errors.unsupported" := BadRequest,
    "com.vmware.vapi.std.errors.error" := BadRequest,
    "com.vmware.vapi.std.errors.concurrent_change" := BadRequest,
    "com.vmware.vapi.std.errors.canceled" := BadRequest,
    "com.vmware.vapi.std.errors.unverified_peer" := BadRequest]

  /** The status codes other than 400 and the error types that receive them. */
  const SpecialStatuses: map<string, int> := map[
    "com.vmware.vapi.std.errors.internal_server_error" := InternalServerError,
    "com.vmware.vapi.std.errors.not_found" := NotFound,
    "com.vmware.vapi.std.errors.operation_not_found" := NotFound,
    "com.vmware.vapi.std.errors.service_unavailable" := ServiceUnavailable,
    "com.vmware.vapi.std.errors.timed_out" := GatewayTimeout,
    "com.vmware.vapi.std.errors.unauthenticated" := Unauthorized,
    "com.vmware.vapi.std.errors.unauthorized" := Forbidden]

  /** The seven error types of SpecialStatuses keep their own code in the static table. */
  lemma ErrorRestMapSpecial()
    ensures forall k <- SpecialStatuses :: k in ErrorRestMap && ErrorRestMap[k] == SpecialStatuses[k]
  {
  }

  /** Every other error type of the static table maps to 400. */
  lemma ErrorRestMapDefault()
    ensures forall k <- ErrorRestMap :: k !in SpecialStatuses ==> ErrorRestMap[k] == BadRequest
  {
  }

  // ---------------------------------------------------------------------
  // Decimal codes, as `int()` reads them
  // ---------------------------------------------------------------------

  predicate IsDigit(c: char) {
    '0' <= c <= '9'
  }

  function DigitValue(c: char): (d: nat)
    requires IsDigit(c)
    ensures d < 10
  {
    c as int - '0' as int
  }

  /** A non-empty run of ASCII digits. */
  predicate IsDecimal(s: string) {
    |s| >= 1 && forall c <- s :: IsDigit(c)
  }

  function Pow10(k: nat): (p: nat)
    ensures p >= 1
  {
    if k == 0 then 1 else 10 * Pow10(k - 1)
  }

  /**
   The value of a decimal numeral, Python `int(s)` on a digit string
   (leading zeros allowed): it has fewer than `|s|` + 1 digits, and
   exactly `|s|` when the numeral does not start with `0`.
   */
  function DecimalValue(s: string): (n: nat)
    requires forall c <- s :: IsDigit(c)
    ensures n < Pow10(|s|)
    ensures |s| > 0 && s[0] != '0' ==> Pow10(|s| - 1) <= n
    decreases |s|
  {
    if s == [] then 0
    else
      var init := s[..|s| - 1];
      var v := DecimalValue(init);
      assert |s| > 1 ==> init[0] == s[0];
      v * 10 + DigitValue(s[|s| - 1])
  }

  /** The decimal numeral of `n` without leading zeros, Python `str(n)`. */
  function DecimalString(n: nat): (s: string)
    ensures IsDecimal(s)
  {
    if n < 10 then [('0' as int + n) as char]
    else DecimalString(n / 10) + [('0' as int + n % 10) as char]
  }

  /** Writing out the value of a numeral without leading zeros gives the numeral back. */
  lemma {:induction false} DecimalStringOfValue(s: string)
    requires IsDecimal(s) && (|s| == 1 || s[0] != '0')
    ensures DecimalString(DecimalValue(s)) == s
    decreases |s|
  {
    if |s| > 1 {
      var init := s[..|s| - 1];
      var n := DecimalValue(s);
      assert n / 10 == DecimalValue(init) && n % 10 == DigitValue(s[|s| - 1]);
      assert init[0] == s[0];
      DecimalStringOfValue(init);
      assert s == init + [s[|s| - 1]];
    }
  }

  /** Reading back the numeral of `n` gives `n`. */
  lemma {:induction false} DecimalRoundTrip(n: nat)
    ensures DecimalValue(DecimalString(n)) == n
  {
    var s := DecimalString(n);
    if n >= 10 {
      DecimalRoundTrip(n / 10);
      assert s[..|s| - 1] == DecimalString(n / 10);
    }
  }

  // ---------------------------------------------------------------------
  // The dynamic table
  // ---------------------------------------------------------------------

  /**
   The `code` element of the `Response` annotation, when both are present;
   a missing one is the KeyError the source catches and reports.
   */
  function ResponseCode(metadata: Metadata): (r: Option<string>)
    ensures r.Some? <==> "Response" in metadata && "code" in metadata["Response"].elements
  {
    if "Response" in metadata && "code" in metadata["Response"].elements
    then Some(metadata["Response"].elements["code"].stringValue)
    else None
  }

  /** Every code that is present is a decimal numeral (otherwise `int()` raises, uncaught). */
  predicate CodesAreDecimal(structures: map<string, Metadata>) {
    forall name <- structures :: ResponseCode(structures[name]).Some? ==> IsDecimal(ResponseCode(structures[name]).value)
  }

  /**
   `error_api_map`: each error structure, by name, whose metadata carries
   a Response code, mapped to that code's value; structures without one
   are left out.
   */
  function ErrorApiMap(structures: map<string, Metadata>): (r: map<string, int>)
    requires CodesAreDecimal(structures)
    ensures forall name :: name in r <==> name in structures && ResponseCode(structures[name]).Some?
    ensures forall name <- r :: r[name] >= 0
  {
    map name | name in structures && ResponseCode(structures[name]).Some?
      :: DecimalValue(ResponseCode(structures[name]).value)
  }

  /** A structure whose Response code is the numeral of `n` is mapped to `n`. */
  lemma ErrorApiMapReadsCode(structures: map<string, Metadata>, name: string, n: nat)
    requires CodesAreDecimal(structures)
    requires name in structures && ResponseCode(structures[name]) == Some(DecimalString(n))
    ensures name in ErrorApiMap(structures) && ErrorApiMap(structures)[name] == n
  {
    DecimalRoundTrip(n);
  }

  /** The two tables an `HttpErrorMap` holds; they are kept apart, never merged. */
  datatype HttpErrorMap = HttpErrorMap(errorApiMap: map<string, int>, errorRestMap: map<string, int>)

  /**
   The constructor, given the structures of the standard-errors package:
   the static table does not depend on them, and the dynamic table only
   names structures that were given.
   */
  function NewHttpErrorMap(structures: map<string, Metadata>): (r: HttpErrorMap)
    requires CodesAreDecimal(structures)
    ensures r.errorRestMap == ErrorRestMap
    ensures r.errorApiMap.Keys <= structures.Keys
    ensures forall name <- structures :: name in r.errorApiMap <==> ResponseCode(structures[name]).Some?
  {
    HttpErrorMap(ErrorApiMap(structures), ErrorRestMap)
  }

  /** Without any declared structure the static default for not_found is still 404. */
  lemma NotFoundWithoutStructures()
    ensures NewHttpErrorMap(map[]).errorRestMap["com.vmware.vapi.std.errors.not_found"] == 404
    ensures NewHttpErrorMap(map[]).errorApiMap == map[]
  {
    ErrorRestMapSpecial();
  }
}

=== FILE: json.dfy ===
/**
 JSON-like documents as the generator builds them (Python dicts, lists,
 strings, numbers), and the two in-place dictionary utilities, modelled
 as functions returning the updated value.
 */
module JsonValue {
  import opened Text

  datatype Json =
    | JNull
    | JBool(b: bool)
    | JNumber(n: int)
    | JString(s: string)
    | JArray(items: seq<Json>)
    | JObject(fields: map<string, Json>)

  // ---------------------------------------------------------------------
  // recursive_ref_update
  // ---------------------------------------------------------------------

  /**
   `recursive_ref_update(dict_obj, old, updated)`: every string value of
   the dictionary that ends with `oldText` has all occurrences of
   `oldText` replaced; nested dictionaries, and dictionaries that are
   direct items of a list value, are updated the same way.  Strings inside
   lists, and lists inside lists, are not visited.
   */
  function RefUpdate(fields: map<string, Json>, oldText: string, newText: string): (r: map<string, Json>)
    ensures r.Keys == fields.Keys
    ensures forall k <- fields :: fields[k].JString? && EndsWith(fields[k].s, oldText)
              ==> r[k] == JString(Replace(fields[k].s, oldText, newText))
    ensures forall k <- fields :: fields[k].JString? && !EndsWith(fields[k].s, oldText) ==> r[k] == fields[k]
    ensures forall k <- fields :: fields[k].JObject? ==> r[k] == JObject(RefUpdate(fields[k].fields, oldText, newText))
    decreases JObject(fields), 0
  {
    map k | k in fields :: RefUpdateValue(fields[k], oldText, newText)
  }

  /** What `recursive_ref_update` does to one value of a dictionary it visits. */
  function RefUpdateValue(v: Json, oldText: string, newText: string): (r: Json)
    ensures r.JString? <==> v.JString?
    ensures r.JObject? <==> v.JObject?
    ensures r.JArray? <==> v.JArray?
    ensures v.JString? ==> r == (if EndsWith(v.s, oldText) then JString(Replace(v.s, oldText, newText)) else v)
    ensures v.JObject? ==> r.fields == RefUpdate(v.fields, oldText, newText)
    ensures v.JArray? ==> |r.items| == |v.items|
    ensures v.JArray? ==> forall i :: 0 <= i < |v.items| ==> r.items[i] == RefUpdateItem(v.items[i], oldText, newText)
    ensures !v.JString? && !v.JArray? && !v.JObject? ==> r == v
    decreases v, 2
  {
    match v
    case JString(s) => if EndsWith(s, oldText) then JString(Replace(s, oldText, newText)) else v
    case JArray(items) => JArray(seq(|items|, i requires 0 <= i < |items| => RefUpdateItem(items[i], oldText, newText)))
    case JObject(f) => JObject(RefUpdate(f, oldText, newText))
    case _ => v
  }

  /** An item of a list value: only a dictionary is visited. */
  function RefUpdateItem(item: Json, oldText: string, newText: string): (r: Json)
    ensures !item.JObject? ==> r == item
    ensures item.JObject? ==> r.JObject? && r.fields.Keys == item.fields.Keys
    ensures item.JObject? ==> r.fields == RefUpdate(item.fields, oldText, newText)
    decreases item, 1
  {
    if item.JObject? then JObject(RefUpdate(item.fields, oldText, newText)) else item
  }

  /** Replacing a text by itself leaves every document as it was. */
  lemma {:induction false} RefUpdateSameText(fields: map<string, Json>, t: string)
    ensures RefUpdate(fields, t, t) == fields
    decreases JObject(fields), 0
  {
    forall k | k in fields
      ensures RefUpdate(fields, t, t)[k] == fields[k]
    {
      RefUpdateValueSameText(fields[k], t);
    }
  }

  lemma {:induction false} RefUpdateValueSameText(v: Json, t: string)
    ensures RefUpdateValue(v, t, t) == v
    decreases v, 2
  {
    match v
    case JString(s) =>
      ReplaceSameText(s, t);
    case JArray(items) =>
      forall i | 0 <= i < |items|
        ensures RefUpdateItem(items[i], t, t) == items[i]
      {
        if items[i].JObject? {
          RefUpdateSameText(items[i].fields, t);
        }
      }
    case JObject(f) =>
      RefUpdateSameText(f, t);
    case _ =>
  }

  /** The documents in which no visited string ends with `oldText`. */
  ghost predicate NoTarget(fields: map<string, Json>, oldText: string)
    decreases JObject(fields), 0
  {
    forall k <- fields :: NoTargetValue(fields[k], oldText)
  }

  ghost predicate NoTargetValue(v: Json, oldText: string)
    decreases v, 1
  {
    match v
    case JString(s) => !EndsWith(s, oldText)
    case JArray(items) => forall i :: 0 <= i < |items| ==> (items[i].JObject? ==> NoTarget(items[i].fields, oldText))
    case JObject(f) => NoTarget(f, oldText)
    case _ => true
  }

  /** A document without a visited string ending in `oldText` is left unchanged. */
  lemma {:induction false} RefUpdateWithoutTarget(fields: map<string, Json>, oldText: string, newText: string)
    requires NoTarget(fields, oldText)
    ensures RefUpdate(fields, oldText, newText) == fields
    decreases JObject(fields), 0
  {
    forall k | k in fields
      ensures RefUpdate(fields, oldText, newText)[k] == fields[k]
    {
      RefUpdateValueWithoutTarget(fields[k], oldText, newText);
    }
  }

  lemma {:induction false} RefUpdateValueWithoutTarget(v: Json, oldText: string, newText: string)
    requires NoTargetValue(v, oldText)
    ensures RefUpdateValue(v, oldText, newText) == v
    decreases v, 2
  {
    match v
    case JArray(items) =>
      forall i | 0 <= i < |items|
        ensures RefUpdateItem(items[i], oldText, newText) == items[i]
      {
        if items[i].JObject? {
          RefUpdateWithoutTarget(items[i].fields, oldText, newText);
        }
      }
    case JObject(f) =>
      RefUpdateWithoutTarget(f, oldText, newText);
    case _ =>
  }

  /**
   A dictionary whose `$ref` ends with the only occurrence of `oldRef`
   gets that suffix rewritten to `newRef`.
   */
  lemma RefUpdateOfRef(oldRef: string, newRef: string, prefix: string)
    requires |oldRef| > 0 && !Contains(prefix + oldRef[..|oldRef| - 1], oldRef)
    ensures RefUpdate(map["$ref" := JString(prefix + oldRef)], oldRef, newRef)
         == map["$ref" := JString(prefix + newRef)]
  {
    var s := prefix + oldRef;
    assert s[|s| - |oldRef|..] == oldRef;
    ReplaceSuffix(prefix, oldRef, newRef);
  }

  /**
   A string ending with a non-empty `oldText` has every occurrence
   replaced: it is cut at each occurrence and rejoined with `newText`.
   */
  lemma RefUpdateRenamesEveryOccurrence(s: string, oldText: string, newText: string)
    requires |oldText| > 0 && EndsWith(s, oldText)
    ensures RefUpdateValue(JString(s), oldText, newText) == JString(Join(newText, Split(s, oldText)))
  {
    ReplaceIsJoinOfSplit(s, oldText, newText);
  }

  /** The update of a one-entry dictionary holding a string that ends with `oldText`. */
  lemma RefUpdateSingleString(ref: string, s: string, oldText: string, newText: string)
    requires EndsWith(s, oldText)
    ensures RefUpdate(map[ref := JString(s)], oldText, newText) == map[ref := JString(Replace(s, oldText, newText))]
  {
    var r := RefUpdate(map[ref := JString(s)], oldText, newText);
    assert r.Keys == {ref};
    assert r[ref] == RefUpdateValue(JString(s), oldText, newText);
  }

  /** The update reaches a dictionary nested in a dictionary. */
  lemma RefUpdateReachesNestedObject(key: string, ref: string, s: string, oldText: string, newText: string)
    requires EndsWith(s, oldText)
    ensures RefUpdate(map[key := JObject(map[ref := JString(s)])], oldText, newText)
         == map[key := JObject(map[ref := JString(Replace(s, oldText, newText))])]
  {
    var inner := map[ref := JString(s)];
    RefUpdateSingleString(ref, s, oldText, newText);
    var r := RefUpdate(map[key := JObject(inner)], oldText, newText);
    assert r.Keys == {key};
    assert r[key] == RefUpdateValue(JObject(inner), oldText, newText);
  }

  /** The update reaches a dictionary that is an item of a list. */
  lemma RefUpdateReachesListItem(key: string, ref: string, s: string, oldText: string, newText: string)
    requires EndsWith(s, oldText)
    ensures RefUpdate(map[key := JArray([JObject(map[ref := JString(s)])])], oldText, newText)
         == map[key := JArray([JObject(map[ref := JString(Replace(s, oldText, newText))])])]
  {
    var inner := map[ref := JString(s)];
    RefUpdateSingleString(ref, s, oldText, newText);
    var v := JArray([JObject(inner)]);
    var u := RefUpdateValue(v, oldText, newText);
    assert u.items[0] == RefUpdateItem(JObject(inner), oldText, newText);
    assert u == JArray([JObject(map[ref := JString(Replace(s, oldText, newText))])]);
    var r := RefUpdate(map[key := v], oldText, newText);
    assert r.Keys == {key};
    assert r[key] == u;
  }

  /** Replacing a non-empty text that occurs only as a suffix. */
  lemma {:induction false} ReplaceSuffix(prefix: string, oldText: string, newText: string)
    requires |oldText| > 0 && !Contains(prefix + oldText[..|oldText| - 1], oldText)
    ensures Replace(prefix + oldText, oldText, newText) == prefix + newText
    decreases |prefix|
  {
    var s := prefix + oldText;
    var early := prefix + oldText[..|oldText| - 1];
    if prefix == [] {
      assert StartsWith(s, oldText);
      assert s[|oldText|..] == [];
      ReplaceAbsentIsIdentity([], oldText, newText);
    } else {
      assert !StartsWith(s, oldText);
      assert s[1..] == prefix[1..] + oldText;
      assert early[1..] == prefix[1..] + oldText[..|oldText| - 1];
      ReplaceSuffix(prefix[1..], oldText, newText);
    }
  }

  // ---------------------------------------------------------------------
  // combine_dicts_with_list_values
  // ---------------------------------------------------------------------

  /**
   A list value of the combined dictionary: either a list kept as it was
   given, or `list(set(...))`, whose elements are known but whose order
   Python leaves unspecified.
   */
  datatype ListValue<T> = Kept(items: seq<T>) | Merged(elements: set<T>)
  {
    function Elements(): set<T> {
      match this
      case Kept(items) => set x <- items
      case Merged(elements) => elements
    }
  }

  /**
   `combine_dicts_with_list_values(extended, added)`: keys only in
   `extended` keep their list, keys only in `added` take the added list
   as it is, and keys in both end with the distinct elements of the two
   lists together.
   */
  function CombineDictsWithListValues<T>(extended: map<string, ListValue<T>>, added: map<string, seq<T>>): (r: map<string, ListValue<T>>)
    ensures r.Keys == extended.Keys + added.Keys
    ensures forall k <- extended :: k !in added ==> r[k] == extended[k]
    ensures forall k <- added :: k !in extended ==> r[k] == Kept(added[k])
    ensures forall k <- r :: r[k].Elements() == ElementsAt(extended, k) + (if k in added then set x <- added[k] else {})
  {
    map k | k in extended.Keys + added.Keys ::
      if k !in added then extended[k]
      else if k !in extended then Kept(added[k])
      else Merged(extended[k].Elements() + set x <- added[k])
  }

  /** The elements a dictionary holds under a key; none when the key is missing. */
  function ElementsAt<T>(m: map<string, ListValue<T>>, k: string): set<T> {
    if k in m then m[k].Elements() else {}
  }

  /** Adding the same lists a second time adds no element. */
  lemma CombineTwiceSameElements<T>(extended: map<string, ListValue<T>>, added: map<string, seq<T>>)
    ensures var once := CombineDictsWithListValues(extended, added);
            var twice := CombineDictsWithListValues(once, added);
            twice.Keys == once.Keys && forall k <- once :: twice[k].Elements() == once[k].Elements()
  {
  }
}

=== FILE: params.dfy ===
/**
 Operation parameters and their metadata annotations, with the two
 metadata-driven splits (body / query) and the `is_filtered` decision.
 */
module Params {
  import opened Seqs

  /** One named element of an annotation; the model only reads its string payload. */
  datatype ElementValue = ElementValue(stringValue: string)

  /** A metadata annotation such as PathVariable, Query or Response, with its named elements. */
  datatype Annotation = Annotation(elements: map<string, ElementValue>)

  /** Annotations keyed by tag name ("PathVariable", "Query", "Body", "BodyField", "Response", ...). */
  type Metadata = map<string, Annotation>

  /** An operation parameter (a field info of the metamodel): its name and its annotations. */
  datatype Param = Param(name: string, metadata: Metadata)

  /**
   Whether an element carrying `metadata` is left out of the generated
   document: it is when it is marked Changing or Proposed, unless it is
   also marked TechPreview.
   */
  function IsFiltered(metadata: Metadata): (r: bool)
    ensures r <==> "TechPreview" !in metadata && ("Changing" in metadata || "Proposed" in metadata)
    ensures r ==> |metadata| > 0
  {
    if |metadata| == 0 then false
    else if "TechPreview" in metadata then false
    else if "Changing" in metadata || "Proposed" in metadata then true
    else false
  }

  predicate IsBodyParameter(p: Param) {
    "Body" in p.metadata || "BodyField" in p.metadata
  }

  predicate IsQueryParameter(p: Param) {
    "Query" in p.metadata
  }

  /** Membership in a stable split follows from the element-wise facts and the permutation. */
  lemma PartitionMembership<T>(s: seq<T>, yes: seq<T>, no: seq<T>, f: T -> bool)
    requires multiset(yes) + multiset(no) == multiset(s)
    requires forall x <- yes :: f(x)
    requires forall x <- no :: !f(x)
    ensures forall x :: x in yes <==> x in s && f(x)
    ensures forall x :: x in no <==> x in s && !f(x)
  {
    forall x
      ensures x in yes <==> x in s && f(x)
      ensures x in no <==> x in s && !f(x)
    {
      assert x in s <==> x in multiset(s);
      assert x in yes <==> x in multiset(yes);
      assert x in no <==> x in multiset(no);
    }
  }

  /**
   `extract_body_parameters`: the parameters annotated Body or BodyField,
   and the others, each list in the input order.
   */
  function ExtractBodyParameters(params: seq<Param>): (r: (seq<Param>, seq<Param>))
    ensures forall p :: p in r.0 <==> p in params && ("Body" in p.metadata || "BodyField" in p.metadata)
    ensures forall p :: p in r.1 <==> p in params && "Body" !in p.metadata && "BodyField" !in p.metadata
    ensures multiset(r.0) + multiset(r.1) == multiset(params)
    ensures IsSubsequence(r.0, params) && IsSubsequence(r.1, params)
  {
    var r := Partition(params, IsBodyParameter);
    PartitionMembership(params, r.0, r.1, IsBodyParameter);
    r
  }

  /**
   `extract_query_parameters`: the parameters annotated Query, and the
   others, each list in the input order.
   */
  function ExtractQueryParameters(params: seq<Param>): (r: (seq<Param>, seq<Param>))
    ensures forall p :: p in r.0 <==> p in params && "Query" in p.metadata
    ensures forall p :: p in r.1 <==> p in params && "Query" !in p.metadata
    ensures multiset(r.0) + multiset(r.1) == multiset(params)
    ensures IsSubsequence(r.0, params) && IsSubsequence(r.1, params)
  {
    var r := Partition(params, IsQueryParameter);
    PartitionMembership(params, r.0, r.1, IsQueryParameter);
    r
  }
}

=== FILE: path_object.dfy ===
/**
 The Swagger/OpenAPI path object of one operation: its tags, the fields
 `build_path` sets, the request body pulled out of the parameter list,
 and the basic-auth requirement of the session login.
 */
module PathObject {
  import opened Wrappers
  import opened Text
  import opened JsonValue
  import opened Seqs

  const TagSeparator := "/"

  /**
   `tags_from_service_name`: one tag, the components of the dotted
   service name after the first three, joined with "/" (empty when the
   name has at most three components).
   */
  function TagsFromServiceName(serviceName: string): (r: seq<string>)
    ensures |r| == 1
  {
    var parts := Split(serviceName, ".");
    [Join(TagSeparator, if |parts| >= 3 then parts[3..] else [])]
  }

  /**
   For `a.b.c.rest` with three dot-free leading components, the tag is
   `rest` with its dots turned into slashes.
   */
  lemma TagsAfterNamespace(a: string, b: string, c: string, rest: string)
    requires '.' !in a && '.' !in b && '.' !in c
    ensures TagsFromServiceName(a + "." + b + "." + c + "." + rest) == [Replace(rest, ".", "/")]
  {
    var tail2 := c + "." + rest;
    var tail1 := b + "." + tail2;
    var s := a + "." + tail1;
    assert s == a + "." + b + "." + c + "." + rest;
    SplitLeadingSegment(a, '.', tail1);
    SplitLeadingSegment(b, '.', tail2);
    SplitLeadingSegment(c, '.', rest);
    var parts := Split(s, ".");
    assert parts == [a, b, c] + Split(rest, ".");
    assert parts[3..] == Split(rest, ".");
    ReplaceIsJoinOfSplit(rest, ".", "/");
  }

  lemma TagsOfVm()
    ensures TagsFromServiceName("com.vmware.vcenter.VM") == ["VM"]
  {
    assert "com.vmware.vcenter.VM" == "com" + "." + "vmware" + "." + "vcenter" + "." + "VM";
    TagsAfterNamespace("com", "vmware", "vcenter", "VM");
    ReplaceAbsentIsIdentity("VM", ".", "/");
  }

  /** A service name of at most three components, at most the namespace, gets the empty tag. */
  lemma TagsOfFewSegments(serviceName: string)
    requires multiset(serviceName)['.'] <= 2
    ensures TagsFromServiceName(serviceName) == [""]
  {
    SplitCount(serviceName, '.');
    assert |Split(serviceName, ".")| <= 3;
  }

  // ---------------------------------------------------------------------
  // build_path
  // ---------------------------------------------------------------------

  /** The keys a path object holds. */
  datatype PathKey =
    | Tags | Method | Path | Summary | Parameters | Responses | Consumes | Produces | OperationId
    | RequestBody | Security
  {
    /** The key as it is spelled in the generated document. */
    function Name(): string {
      match this
      case Tags => "tags"
      case Method => "method"
      case Path => "path"
      case Summary => "summary"
      case Parameters => "parameters"
      case Responses => "responses"
      case Consumes => "consumes"
      case Produces => "produces"
      case OperationId => "operationId"
      case RequestBody => "requestBody"
      case Security => "security"
    }
  }

  /** No two keys share a spelling, so a map over `PathKey` is a dictionary over the spelled keys. */
  lemma PathKeyNamesDistinct(a: PathKey, b: PathKey)
    requires a.Name() == b.Name()
    ensures a == b
  {
  }

  /** A path object: a dictionary over the keys above. */
  type PathObj = map<PathKey, Json>

  /**
   The arguments of one `build_path` call. An argument left as None is
   JNull, the JSON null, which is how every Python None is written here.
   */
  datatype BuildPathArgs = BuildPathArgs(
    serviceName: string, httpMethod: Json, path: Json, documentation: Json,
    parameters: Json, operationId: Json, responses: Json, consumes: Json, produces: Json)
  {
    /**
     The value a key would be filled from: the tags are always computed
     from the service name, requestBody and security are never set.
     */
    function Argument(k: PathKey): Json {
      match k
      case Tags => JArray([JString(TagsFromServiceName(serviceName)[0])])
      case Method => httpMethod
      case Path => path
      case Summary => documentation
      case Parameters => parameters
      case Responses => responses
      case Consumes => consumes
      case Produces => produces
      case OperationId => operationId
      case RequestBody => JNull
      case Security => JNull
    }
  }

  const BuiltKeys: set<PathKey> := {Tags, Method, Path, Summary, Parameters, Responses, Consumes, Produces, OperationId}

  /**
   `build_path`: a path object holding the tags of the service name and
   every argument that is not None, under its key (the documentation under
   "summary"); no other key.
   */
  function BuildPath(args: BuildPathArgs): (r: PathObj)
    ensures forall k :: k in r <==> args.Argument(k) != JNull
    ensures forall k <- r :: r[k] == args.Argument(k)
    ensures forall k <- r :: r[k] != JNull
    ensures Tags in r && RequestBody !in r && Security !in r
  {
    map k | k in BuiltKeys && args.Argument(k) != JNull :: args.Argument(k)
  }

  /** The tags entry is the single tag derived from the service name. */
  lemma BuildPathTags(args: BuildPathArgs)
    ensures Tags in BuildPath(args)
    ensures BuildPath(args)[Tags] == JArray([JString(TagsFromServiceName(args.serviceName)[0])])
  {
  }

  /** A call giving only the method and the path builds exactly the tags, method and path. */
  lemma BuildPathWithMethodAndPath(serviceName: string, httpMethod: Json, path: Json)
    requires httpMethod != JNull && path != JNull
    ensures BuildPath(BuildPathArgs(serviceName, httpMethod, path, JNull, JNull, JNull, JNull, JNull, JNull))
         == map[Tags := JArray([JString(TagsFromServiceName(serviceName)[0])]), Method := httpMethod, Path := path]
  {
    var r := BuildPath(BuildPathArgs(serviceName, httpMethod, path, JNull, JNull, JNull, JNull, JNull, JNull));
    assert r.Keys == {Tags, Method, Path};
  }

  // ---------------------------------------------------------------------
  // create_req_body_from_params_list
  // ---------------------------------------------------------------------

  const RequestBodiesPrefix := "#/components/requestBodies/"

  /** Python truthiness: the values `if parameters:` treats as false. */
  predicate IsFalsy(v: Json) {
    v == JNull || v == JBool(false) || v == JNumber(0) || v == JString("")
    || v == JArray([]) || v == JObject(map[])
  }

  /**
   An item the search gets past without raising: `'$ref' in item` is a key
   test on a dictionary, whose `$ref` must then be a string for
   `startswith`; a substring test on a string and a membership test on a
   list, either of which must fail, since indexing them with '$ref'
   raises. Any other item has no `in` at all.
   */
  predicate IsScannable(item: Json) {
    match item
    case JObject(fields) => "$ref" in fields ==> fields["$ref"].JString?
    case JString(s) => !Contains(s, "$ref")
    case JArray(xs) => JString("$ref") !in xs
    case _ => false
  }

  /** Every item the search reaches, those up to the first request-body reference, is scannable. */
  predicate ScanSucceeds(items: seq<Json>) {
    forall j :: 0 <= j < |items| && (forall i :: 0 <= i < j ==> !IsRequestBodyRef(items[i])) ==> IsScannable(items[j])
  }

  /**
   What the source needs of the path object: a "parameters" entry that is
   false, or a string (its one-character items never hold "$ref"), or a
   list the search gets through. A truthy number or boolean has no `len`,
   and a truthy dictionary has no key 0.
   */
  predicate HasParameterList(pathObj: PathObj) {
    Parameters in pathObj
    && var ps := pathObj[Parameters];
       IsFalsy(ps) || ps.JString? || (ps.JArray? && ScanSucceeds(ps.items))
  }

  /** A "parameters" entry all of whose items are scannable, so that any later search gets through too. */
  predicate HasEntryList(pathObj: PathObj) {
    Parameters in pathObj
    && var ps := pathObj[Parameters];
       IsFalsy(ps) || ps.JString? || (ps.JArray? && forall item <- ps.items :: IsScannable(item))
  }

  /** A parameter entry that refers to a shared request body. */
  predicate IsRequestBodyRef(item: Json) {
    item.JObject? && "$ref" in item.fields && item.fields["$ref"].JString?
    && StartsWith(item.fields["$ref"].s, RequestBodiesPrefix)
  }

  /** The index of the first request-body reference, the `for … break` loop. */
  function FirstRequestBodyRef(items: seq<Json>): (r: Option<nat>)
    ensures r.Some? ==> r.value < |items| && IsRequestBodyRef(items[r.value])
    ensures r.Some? ==> forall j :: 0 <= j < r.value ==> !IsRequestBodyRef(items[j])
    ensures r.None? <==> forall j :: 0 <= j < |items| ==> !IsRequestBodyRef(items[j])
  {
    if items == [] then None
    else if IsRequestBodyRef(items[0]) then Some(0)
    else
      var rest := FirstRequestBodyRef(items[1..]);
      assert forall j :: 1 <= j < |items| ==> items[j] == items[1..][j - 1];
      if rest.Some? then Some(rest.value + 1) else None
  }

  /** The path object holds a parameter list with a request-body reference in it. */
  predicate HasRequestBodyRef(pathObj: PathObj) {
    Parameters in pathObj && pathObj[Parameters].JArray? && FirstRequestBodyRef(pathObj[Parameters].items).Some?
  }

  /**
   `create_req_body_from_params_list`: the first parameter that refers to
   a shared request body is deleted from the parameter list and its
   reference becomes the path object's `requestBody`; without such a
   parameter, nothing changes.  Every other key keeps its value.
   */
  function CreateReqBodyFromParamsList(pathObj: PathObj): (r: PathObj)
    requires HasParameterList(pathObj)
    ensures !HasRequestBodyRef(pathObj) ==> r == pathObj
    ensures HasRequestBodyRef(pathObj) ==>
              var items := pathObj[Parameters].items;
              var i := FirstRequestBodyRef(items).value;
              && r.Keys == pathObj.Keys + {RequestBody}
              && r[RequestBody] == JObject(map["$ref" := items[i].fields["$ref"]])
              && r[Parameters] == JArray(items[..i] + items[i + 1..])
              && (forall k <- pathObj :: k != Parameters && k != RequestBody ==> r[k] == pathObj[k])
    ensures HasEntryList(pathObj) ==> HasEntryList(r)
  {
    var ps := pathObj[Parameters];
    if IsFalsy(ps) || !ps.JArray? then pathObj
    else
      var found := FirstRequestBodyRef(ps.items);
      if found.None? then pathObj
      else
        var i := found.value;
        var remaining := ps.items[..i] + ps.items[i + 1..];
        DeleteAtMultiset(ps.items, i);
        pathObj[RequestBody := JObject(map["$ref" := ps.items[i].fields["$ref"]])][Parameters := JArray(remaining)]
  }

  /** The parameter list loses exactly the moved entry. */
  lemma CreateReqBodyRemovesOneEntry(pathObj: PathObj)
    requires HasParameterList(pathObj) && HasRequestBodyRef(pathObj)
    ensures var items := pathObj[Parameters].items;
            var i := FirstRequestBodyRef(items).value;
            multiset(CreateReqBodyFromParamsList(pathObj)[Parameters].items) + multiset{items[i]} == multiset(items)
  {
    var items := pathObj[Parameters].items;
    var i := FirstRequestBodyRef(items).value;
    DeleteAtMultiset(items, i);
  }

  /**
   With a single request-body reference in the list, none is left in the
   parameters afterwards, so a second call changes nothing.
   */
  lemma CreateReqBodyWithSingleRef(pathObj: PathObj, i: nat)
    requires HasEntryList(pathObj) && pathObj[Parameters].JArray?
    requires i < |pathObj[Parameters].items| && IsRequestBodyRef(pathObj[Parameters].items[i])
    requires forall j :: 0 <= j < |pathObj[Parameters].items| && j != i ==> !IsRequestBodyRef(pathObj[Parameters].items[j])
    ensures var r := CreateReqBodyFromParamsList(pathObj);
            && r[RequestBody] == JObject(map["$ref" := pathObj[Parameters].items[i].fields["$ref"]])
            && CreateReqBodyFromParamsList(r) == r
  {
    var items := pathObj[Parameters].items;
    var r := CreateReqBodyFromParamsList(pathObj);
    var remaining := items[..i] + items[i + 1..];
    assert FirstRequestBodyRef(items) == Some(i);
    assert r[Parameters] == JArray(remaining);
    assert forall j :: 0 <= j < |remaining| ==> !IsRequestBodyRef(remaining[j]) by {
      forall j | 0 <= j < |remaining|
        ensures !IsRequestBodyRef(remaining[j])
      {
        if j < i {
          assert remaining[j] == items[j];
        } else {
          assert remaining[j] == items[j + 1];
        }
      }
    }
  }

  // ---------------------------------------------------------------------
  // add_basic_auth
  // ---------------------------------------------------------------------

  const SessionPath := "/com/vmware/cis/session"

  /** `[{'basic_auth': []}]`: the security requirement of the session login. */
  const BasicAuthSecurity: Json := JArray([JObject(map["basic_auth" := JArray([])])])

  /**
   The keys the source reads: "path" always, "method" only when the path
   is the session path (the `and` does not evaluate it otherwise).
   */
  predicate HasPathAndMethod(pathObj: PathObj) {
    Path in pathObj && (pathObj[Path] == JString(SessionPath) ==> Method in pathObj)
  }

  predicate IsSessionLogin(pathObj: PathObj)
    requires HasPathAndMethod(pathObj)
  {
    pathObj[Path] == JString(SessionPath) && pathObj[Method] == JString("post")
  }

  /**
   `add_basic_auth`: a POST to the session path gets the basic-auth
   security requirement; every other path object is returned as it is.
   */
  function AddBasicAuth(pathObj: PathObj): (r: PathObj)
    requires HasPathAndMethod(pathObj)
    ensures IsSessionLogin(pathObj) ==> r == pathObj[Security := BasicAuthSecurity]
    ensures !IsSessionLogin(pathObj) ==> r == pathObj
    ensures HasPathAndMethod(r) && (IsSessionLogin(r) <==> IsSessionLogin(pathObj))
  {
    if pathObj[Path] == JString(SessionPath) && pathObj[Method] == JString("post")
    then pathObj[Security := BasicAuthSecurity]
    else pathObj
  }

  lemma AddBasicAuthIdempotent(pathObj: PathObj)
    requires HasPathAndMethod(pathObj)
    ensures AddBasicAuth(AddBasicAuth(pathObj)) == AddBasicAuth(pathObj)
  {
  }

  /** The path object built for the session login requires basic auth once it passes through add_basic_auth. */
  lemma BuiltSessionLoginRequiresBasicAuth(args: BuildPathArgs)
    requires args.path == JString(SessionPath) && args.httpMethod == JString("post")
    ensures HasPathAndMethod(BuildPath(args))
    ensures var r := AddBasicAuth(BuildPath(args));
            Security in r && r[Security] == BasicAuthSecurity
  {
  }

  /** Any other built path object is left without a security requirement. */
  lemma BuiltOtherPathHasNoSecurity(args: BuildPathArgs)
    requires args.path != JNull && args.path != JString(SessionPath)
    ensures HasPathAndMethod(BuildPath(args))
    ensures Security !in AddBasicAuth(BuildPath(args))
  {
  }
}

=== FILE: path_params.dfy ===
/**
 Path-variable reconciliation (`extract_path_parameters`): the `{...}`
 placeholders of a URL template are matched, in URL order, against the
 operation's parameters; matched parameters leave the pool, and a
 placeholder whose parameter has a different name is rewritten to it.
 */
module PathParams {
  import opened Wrappers
  import opened Seqs
  import opened Text
  import opened Params

  // ---------------------------------------------------------------------
  // The scan of the pattern {(.+?)} over a URL
  // ---------------------------------------------------------------------

  /** One match of `{(.+?)}`: the index of its `{` and its group. */
  datatype Match = Match(start: nat, group: string)

  /** The whole matched text, Python's `match.group()`. */
  function Whole(m: Match): string {
    "{" + m.group + "}"
  }

  /**
   What a match of `{(.+?)}` must be: it sits in `s`, its group is not
   empty and holds no newline (`.` does not match one), and it is the
   shortest such group, so only its first character may be `}`.
   */
  ghost predicate WellPlaced(s: string, m: Match) {
    && m.start + |m.group| + 2 <= |s|
    && s[m.start..m.start + |m.group| + 2] == Whole(m)
    && |m.group| >= 1
    && '\n' !in m.group
    && '}' !in m.group[1..]
  }

  /** The index of the `}` ending a lazy group whose remaining characters start at `k`. */
  function CloseFrom(s: string, k: nat): (r: Option<nat>)
    ensures r.Some? ==> k <= r.value < |s| && s[r.value] == '}'
    ensures r.Some? ==> forall m :: k <= m < r.value ==> s[m] != '}' && s[m] != '\n'
    ensures r.None? ==> forall m :: k <= m < |s| && s[m] == '}' ==> exists n :: k <= n < m && s[n] == '\n'
    decreases |s| - k
  {
    if k >= |s| || s[k] == '\n' then None
    else if s[k] == '}' then Some(k)
    else CloseFrom(s, k + 1)
  }

  /** A `{` at `i` that opens a match of `{(.+?)}`. */
  predicate Opens(s: string, i: nat) {
    i + 1 < |s| && s[i] == '{' && s[i + 1] != '\n' && CloseFrom(s, i + 2).Some?
  }

  /** The match opened at `i`. */
  function MatchAt(s: string, i: nat): (m: Match)
    requires Opens(s, i)
    ensures m.start == i && m.start + |Whole(m)| == CloseFrom(s, i + 2).value + 1
  {
    Match(i, s[i + 1..CloseFrom(s, i + 2).value])
  }

  /**
   Python's `finditer` of `{(.+?)}` from index `i`: a `{` followed by at
   least one non-newline character and, lazily, the next `}` before any
   newline is a match, and the scan resumes after it; any other position
   is skipped.
   */
  function MatchesFrom(s: string, i: nat): (r: seq<Match>)
    ensures forall m <- r :: i <= m.start && WellPlaced(s, m)
    ensures forall a, b :: 0 <= a < b < |r| ==> r[a].start + |Whole(r[a])| <= r[b].start
    ensures (forall k :: i <= k < |s| ==> s[k] != '{') ==> r == []
    decreases |s| - i
  {
    if i >= |s| then []
    else if s[i] == '{' && i + 1 < |s| && s[i + 1] != '\n' && CloseFrom(s, i + 2).Some? then
      var j := CloseFrom(s, i + 2).value;
      var m := Match(i, s[i + 1..j]);
      assert s[i..j + 1] == Whole(m) by {
        assert s[i..j + 1] == [s[i]] + s[i + 1..j] + [s[j]];
      }
      assert m.group[1..] == s[i + 2..j];
      var rest := MatchesFrom(s, j + 1);
      [m] + rest
    else
      MatchesFrom(s, i + 1)
  }

  lemma ScanAtOpen(s: string, i: nat)
    requires Opens(s, i)
    ensures MatchesFrom(s, i) == [MatchAt(s, i)] + MatchesFrom(s, CloseFrom(s, i + 2).value + 1)
  {
  }

  lemma ScanSkips(s: string, i: nat)
    requires i < |s| && !Opens(s, i)
    ensures MatchesFrom(s, i) == MatchesFrom(s, i + 1)
  {
  }

  /** A match that opens before `k` and does not cover it ends at or before `k`; the scan resumes there. */
  lemma CoverPassesOn(s: string, i: nat, k: nat)
    requires i < k && Opens(s, i)
    requires forall m <- MatchesFrom(s, i) :: m.start < k ==> m.start + |Whole(m)| <= k
    ensures CloseFrom(s, i + 2).value + 1 <= k
    ensures forall m <- MatchesFrom(s, CloseFrom(s, i + 2).value + 1) :: m.start < k ==> m.start + |Whole(m)| <= k
  {
    ScanAtOpen(s, i);
    assert MatchAt(s, i) in MatchesFrom(s, i);
  }

  /**
   The scan misses nothing: a `{` that could open a match and lies inside
   no earlier match is where a match starts, with the lazy group up to the
   next `}`.
   */
  lemma {:induction false} MatchesFromComplete(s: string, i: nat, k: nat)
    requires i <= k && Opens(s, k)
    requires forall m <- MatchesFrom(s, i) :: m.start < k ==> m.start + |Whole(m)| <= k
    ensures MatchAt(s, k) in MatchesFrom(s, i)
    decreases k - i
  {
    if i == k {
      ScanAtOpen(s, k);
    } else if Opens(s, i) {
      CoverPassesOn(s, i, k);
      ScanAtOpen(s, i);
      MatchesFromComplete(s, CloseFrom(s, i + 2).value + 1, k);
    } else {
      ScanSkips(s, i);
      MatchesFromComplete(s, i + 1, k);
    }
  }

  /** The placeholder texts of `url`, in URL order (group 1 of each match). */
  function Placeholders(url: string): (r: seq<string>)
    ensures |r| == |MatchesFrom(url, 0)|
    ensures forall k :: 0 <= k < |r| ==> r[k] == MatchesFrom(url, 0)[k].group
    ensures forall ph <- r :: |ph| >= 1 && '\n' !in ph
  {
    var ms := MatchesFrom(url, 0);
    seq(|ms|, k requires 0 <= k < |ms| => ms[k].group)
  }

  // ---------------------------------------------------------------------
  // Matching a placeholder against one parameter
  // ---------------------------------------------------------------------

  /** A PathVariable annotation, where present, carries its `value` element. */
  predicate PathVariableWellFormed(p: Param) {
    "PathVariable" in p.metadata ==> "value" in p.metadata["PathVariable"].elements
  }

  /** The PathVariable override name of `p`, if it has one. */
  function PathVariableValue(p: Param): (r: Option<string>)
    requires PathVariableWellFormed(p)
    ensures r.Some? <==> "PathVariable" in p.metadata
  {
    if "PathVariable" in p.metadata
    then Some(p.metadata["PathVariable"].elements["value"].stringValue)
    else None
  }

  /**
   `is_param_path_variable`: `p` serves `placeholder` when its name is the
   placeholder, or when it is annotated PathVariable with that value.
   The annotation is only consulted when the names differ.
   */
  function IsParamPathVariable(p: Param, placeholder: string): (r: bool)
    requires p.name == placeholder || PathVariableWellFormed(p)
    ensures r <==> p.name == placeholder || PathVariableValue(p) == Some(placeholder)
  {
    if p.name == placeholder then true
    else if "PathVariable" !in p.metadata then false
    else p.metadata["PathVariable"].elements["value"].stringValue == placeholder
  }

  predicate AllWellFormed(params: seq<Param>) {
    forall p <- params :: PathVariableWellFormed(p)
  }

  /** The index of the first parameter of `pool` serving `placeholder` (the inner loop with `break`). */
  function FindPathVariable(pool: seq<Param>, placeholder: string): (r: Option<nat>)
    requires AllWellFormed(pool)
    ensures r.Some? ==> r.value < |pool| && IsParamPathVariable(pool[r.value], placeholder)
    ensures r.Some? ==> forall j :: 0 <= j < r.value ==> !IsParamPathVariable(pool[j], placeholder)
    ensures r.None? <==> forall p <- pool :: !IsParamPathVariable(p, placeholder)
  {
    if pool == [] then None
    else if IsParamPathVariable(pool[0], placeholder) then Some(0)
    else
      match FindPathVariable(pool[1..], placeholder)
      case None => None
      case Some(k) => Some(k + 1)
  }

  // ---------------------------------------------------------------------
  // The reconciliation loop
  // ---------------------------------------------------------------------

  /**
   The state of the loop and its result: the path parameters found so far,
   the placeholder each of them was matched to, the remaining pool
   (`other_params`), the rewritten URL, and the placeholders no parameter
   served (the source's diagnostics).
   */
  datatype Extraction = Extraction(
    pathParams: seq<Param>,
    matched: seq<string>,
    otherParams: seq<Param>,
    url: string,
    unmatched: seq<string>)

  /** `r` is `acc` with, possibly, more results appended: earlier results are never revised. */
  ghost predicate Extends(acc: Extraction, r: Extraction) {
    && |acc.pathParams| <= |r.pathParams| && r.pathParams[..|acc.pathParams|] == acc.pathParams
    && |acc.matched| <= |r.matched| && r.matched[..|acc.matched|] == acc.matched
    && |r.pathParams| - |acc.pathParams| == |r.matched| - |acc.matched|
    && |acc.unmatched| <= |r.unmatched| && r.unmatched[..|acc.unmatched|] == acc.unmatched
  }

  lemma ExtendsTransitive(a: Extraction, b: Extraction, c: Extraction)
    requires Extends(a, b) && Extends(b, c)
    ensures Extends(a, c)
  {
    assert c.pathParams[..|a.pathParams|] == c.pathParams[..|b.pathParams|][..|a.pathParams|];
    assert c.matched[..|a.matched|] == c.matched[..|b.matched|][..|a.matched|];
    assert c.unmatched[..|a.unmatched|] == c.unmatched[..|b.unmatched|][..|a.unmatched|];
  }

  /** One iteration of the outer loop, for one placeholder. */
  function Step(acc: Extraction, placeholder: string): (r: Extraction)
    requires AllWellFormed(acc.otherParams)
    ensures AllWellFormed(r.otherParams)
    ensures Extends(acc, r)
  {
    match FindPathVariable(acc.otherParams, placeholder)
    case None =>
      assert (acc.unmatched + [placeholder])[..|acc.unmatched|] == acc.unmatched;
      acc.(unmatched := acc.unmatched + [placeholder])
    case Some(k) =>
      var p := acc.otherParams[k];
      assert (acc.pathParams + [p])[..|acc.pathParams|] == acc.pathParams;
      assert (acc.matched + [placeholder])[..|acc.matched|] == acc.matched;
      acc.(pathParams := acc.pathParams + [p],
           matched := acc.matched + [placeholder],
           otherParams := RemoveFirst(acc.otherParams, p),
           url := if p.name != placeholder
                  then Replace(acc.url, "{" + placeholder + "}", "{" + p.name + "}")
                  else acc.url)
  }

  /** The outer loop over the remaining placeholders. */
  function Reconcile(placeholders: seq<string>, acc: Extraction): (r: Extraction)
    requires AllWellFormed(acc.otherParams)
    ensures AllWellFormed(r.otherParams)
    ensures Extends(acc, r)
    decreases |placeholders|
  {
    if placeholders == [] then
      assert acc.pathParams[..|acc.pathParams|] == acc.pathParams;
      assert acc.matched[..|acc.matched|] == acc.matched;
      assert acc.unmatched[..|acc.unmatched|] == acc.unmatched;
      acc
    else
      var s := Step(acc, placeholders[0]);
      var r := Reconcile(placeholders[1..], s);
      ExtendsTransitive(acc, s, r);
      r
  }

  // ---------------------------------------------------------------------
  // The loop invariant
  // ---------------------------------------------------------------------

  /** The pool and the path parameters together are the input; the pool keeps the input order. */
  ghost predicate ParamsAccounted(params: seq<Param>, acc: Extraction) {
    && multiset(acc.pathParams) + multiset(acc.otherParams) == multiset(params)
    && IsSubsequence(acc.otherParams, params)
  }

  /** Each path parameter serves the placeholder it was matched to. */
  ghost predicate PathParamsServe(acc: Extraction)
    requires AllWellFormed(acc.pathParams)
  {
    && |acc.pathParams| == |acc.matched|
    && forall i :: 0 <= i < |acc.matched| ==> IsParamPathVariable(acc.pathParams[i], acc.matched[i])
  }

  /** No parameter left in the pool serves a placeholder reported as unmatched. */
  ghost predicate UnmatchedUnserved(acc: Extraction)
    requires AllWellFormed(acc.otherParams)
  {
    forall ph, p :: ph in acc.unmatched && p in acc.otherParams ==> !IsParamPathVariable(p, ph)
  }

  /** Every processed placeholder is either matched or unmatched, each list in URL order. */
  ghost predicate PlaceholdersAccounted(done: seq<string>, acc: Extraction) {
    && multiset(acc.matched) + multiset(acc.unmatched) == multiset(done)
    && IsSubsequence(acc.matched, done)
    && IsSubsequence(acc.unmatched, done)
  }

  /** The half of the loop invariant about the parameters, kept after every step. */
  ghost predicate PoolInvariant(params: seq<Param>, acc: Extraction) {
    && AllWellFormed(acc.otherParams)
    && AllWellFormed(acc.pathParams)
    && ParamsAccounted(params, acc)
    && PathParamsServe(acc)
  }

  /** The half of the loop invariant about the placeholders `done` processed so far. */
  ghost predicate PlaceholderInvariant(done: seq<string>, acc: Extraction) {
    && AllWellFormed(acc.otherParams)
    && UnmatchedUnserved(acc)
    && PlaceholdersAccounted(done, acc)
  }

  /** When some pooled parameter serves the placeholder, the first one leaves the pool. */
  lemma StepMovesFirstMatch(params: seq<Param>, acc: Extraction, placeholder: string, k: nat)
    requires AllWellFormed(acc.otherParams) && ParamsAccounted(params, acc)
    requires FindPathVariable(acc.otherParams, placeholder) == Some(k)
    ensures Step(acc, placeholder).otherParams == acc.otherParams[..k] + acc.otherParams[k+1..]
    ensures ParamsAccounted(params, Step(acc, placeholder))
  {
    var pool := acc.otherParams;
    var r := Step(acc, placeholder);
    assert forall j :: 0 <= j < k ==> pool[j] != pool[k];
    RemoveFirstAt(pool, k);
    RemoveFirstMultiset(pool, pool[k]);
    DeleteAtIsSubsequence(pool, k);
    SubsequenceTransitive(r.otherParams, pool, params);
    assert multiset(r.pathParams) == multiset(acc.pathParams) + multiset{pool[k]};
  }

  lemma StepKeepsPathParamsServe(acc: Extraction, placeholder: string)
    requires AllWellFormed(acc.otherParams) && AllWellFormed(acc.pathParams)
    requires PathParamsServe(acc)
    ensures AllWellFormed(Step(acc, placeholder).pathParams)
    ensures PathParamsServe(Step(acc, placeholder))
  {
    var r := Step(acc, placeholder);
    forall i | 0 <= i < |r.matched|
      ensures PathVariableWellFormed(r.pathParams[i]) && IsParamPathVariable(r.pathParams[i], r.matched[i])
    {
      if i < |acc.matched| {
        assert r.pathParams[i] == acc.pathParams[i] && r.matched[i] == acc.matched[i];
      }
    }
  }

  lemma StepKeepsUnmatchedUnserved(acc: Extraction, placeholder: string)
    requires AllWellFormed(acc.otherParams)
    requires UnmatchedUnserved(acc)
    ensures UnmatchedUnserved(Step(acc, placeholder))
  {
  }

  lemma StepKeepsPlaceholdersAccounted(done: seq<string>, acc: Extraction, placeholder: string)
    requires AllWellFormed(acc.otherParams)
    requires PlaceholdersAccounted(done, acc)
    ensures PlaceholdersAccounted(done + [placeholder], Step(acc, placeholder))
  {
    if FindPathVariable(acc.otherParams, placeholder).None? {
      SubsequenceAppendRight(acc.matched, done, placeholder);
      SubsequenceAppendBoth(acc.unmatched, done, placeholder);
    } else {
      SubsequenceAppendBoth(acc.matched, done, placeholder);
      SubsequenceAppendRight(acc.unmatched, done, placeholder);
    }
  }

  lemma StepKeepsPoolInvariant(params: seq<Param>, acc: Extraction, placeholder: string)
    requires PoolInvariant(params, acc)
    ensures PoolInvariant(params, Step(acc, placeholder))
  {
    var found := FindPathVariable(acc.otherParams, placeholder);
    if found.Some? {
      StepMovesFirstMatch(params, acc, placeholder, found.value);
    }
    StepKeepsPathParamsServe(acc, placeholder);
  }

  lemma StepKeepsPlaceholderInvariant(done: seq<string>, acc: Extraction, placeholder: string)
    requires PlaceholderInvariant(done, acc)
    ensures PlaceholderInvariant(done + [placeholder], Step(acc, placeholder))
  {
    StepKeepsUnmatchedUnserved(acc, placeholder);
    StepKeepsPlaceholdersAccounted(done, acc, placeholder);
  }

  lemma ReconcileUnfold(placeholders: seq<string>, acc: Extraction)
    requires AllWellFormed(acc.otherParams) && placeholders != []
    ensures Reconcile(placeholders, acc) == Reconcile(placeholders[1..], Step(acc, placeholders[0]))
  {
  }

  /** The whole loop keeps the parameter half of the invariant. */
  lemma {:induction false} ReconcileKeepsPoolInvariant(params: seq<Param>, placeholders: seq<string>, acc: Extraction)
    requires PoolInvariant(params, acc)
    ensures PoolInvariant(params, Reconcile(placeholders, acc))
    decreases |placeholders|
  {
    if placeholders != [] {
      ReconcileUnfold(placeholders, acc);
      StepKeepsPoolInvariant(params, acc, placeholders[0]);
      ReconcileKeepsPoolInvariant(params, placeholders[1..], Step(acc, placeholders[0]));
    }
  }

  /** The whole loop keeps the placeholder half of the invariant, ending with all of them processed. */
  lemma {:induction false} ReconcileKeepsPlaceholderInvariant(
    done: seq<string>, placeholders: seq<string>, all: seq<string>, acc: Extraction)
    requires all == done + placeholders
    requires PlaceholderInvariant(done, acc)
    ensures PlaceholderInvariant(all, Reconcile(placeholders, acc))
    decreases |placeholders|
  {
    if placeholders == [] {
      assert all == done;
    } else {
      ReconcileUnfold(placeholders, acc);
      StepKeepsPlaceholderInvariant(done, acc, placeholders[0]);
      ConcatShift(done, placeholders);
      ReconcileKeepsPlaceholderInvariant(done + [placeholders[0]], placeholders[1..], all, Step(acc, placeholders[0]));
    }
  }

  // ---------------------------------------------------------------------
  // extract_path_parameters
  // ---------------------------------------------------------------------

  /**
   `extract_path_parameters(params, url)`: `pathParams`, `otherParams` and
   `url` are the three values the source returns; `matched` and
   `unmatched` record, for each placeholder of `url` in order, whether a
   parameter served it.
   */
  function ExtractPathParameters(params: seq<Param>, url: string): (r: Extraction)
    requires AllWellFormed(params)
    ensures AllWellFormed(r.pathParams) && AllWellFormed(r.otherParams)
    ensures multiset(r.pathParams) + multiset(r.otherParams) == multiset(params)
    ensures IsSubsequence(r.otherParams, params)
    ensures |r.pathParams| == |r.matched|
    ensures forall i :: 0 <= i < |r.matched| ==> IsParamPathVariable(r.pathParams[i], r.matched[i])
    ensures forall ph, p :: ph in r.unmatched && p in r.otherParams ==> !IsParamPathVariable(p, ph)
    ensures multiset(r.matched) + multiset(r.unmatched) == multiset(Placeholders(url))
    ensures IsSubsequence(r.matched, Placeholders(url)) && IsSubsequence(r.unmatched, Placeholders(url))
  {
    var start := Extraction([], [], params, url, []);
    SubsequenceReflexive(params);
    assert PoolInvariant(params, start);
    assert PlaceholderInvariant([], start);
    assert Placeholders(url) == [] + Placeholders(url);
    ReconcileKeepsPoolInvariant(params, Placeholders(url), start);
    ReconcileKeepsPlaceholderInvariant([], Placeholders(url), Placeholders(url), start);
    Reconcile(Placeholders(url), start)
  }

  // ---------------------------------------------------------------------
  // Properties of one step and of the whole reconciliation
  // ---------------------------------------------------------------------

  /**
   The placeholder goes to the first pooled parameter serving it: that
   parameter is appended to the path parameters, exactly its index is
   deleted from the pool, and the URL changes only when the names differ,
   by replacing every `{placeholder}` with `{name}`.
   */
  lemma StepTakesFirstMatch(acc: Extraction, placeholder: string, k: nat)
    requires AllWellFormed(acc.otherParams)
    requires k < |acc.otherParams| && IsParamPathVariable(acc.otherParams[k], placeholder)
    requires forall j :: 0 <= j < k ==> !IsParamPathVariable(acc.otherParams[j], placeholder)
    ensures var p := acc.otherParams[k]; var r := Step(acc, placeholder);
      && r.pathParams == acc.pathParams + [p]
      && r.matched == acc.matched + [placeholder]
      && r.otherParams == acc.otherParams[..k] + acc.otherParams[k+1..]
      && r.unmatched == acc.unmatched
      && r.url == (if p.name == placeholder then acc.url
                   else Replace(acc.url, "{" + placeholder + "}", "{" + p.name + "}"))
  {
    var pool := acc.otherParams;
    assert FindPathVariable(pool, placeholder) == Some(k);
    assert forall j :: 0 <= j < k ==> pool[j] != pool[k];
    RemoveFirstAt(pool, k);
  }

  /** A placeholder no pooled parameter serves changes nothing but the diagnostics. */
  lemma StepWithoutMatch(acc: Extraction, placeholder: string)
    requires AllWellFormed(acc.otherParams)
    requires forall p <- acc.otherParams :: !IsParamPathVariable(p, placeholder)
    ensures Step(acc, placeholder) == acc.(unmatched := acc.unmatched + [placeholder])
  {
  }

  /**
   A URL without placeholders (one without `{`, say) has nothing matched,
   and nothing changes.
   */
  lemma ExtractWithoutPlaceholders(params: seq<Param>, url: string)
    requires AllWellFormed(params)
    requires Placeholders(url) == []
    ensures var r := ExtractPathParameters(params, url);
      r.url == url && r.pathParams == [] && r.otherParams == params && r.unmatched == []
  {
  }

  lemma {:induction false} ReconcileEmptyPool(placeholders: seq<string>, acc: Extraction)
    requires acc.otherParams == []
    ensures Reconcile(placeholders, acc) == acc.(unmatched := acc.unmatched + placeholders)
    decreases |placeholders|
  {
    if placeholders == [] {
      assert acc.unmatched + placeholders == acc.unmatched;
    } else {
      var s := Step(acc, placeholders[0]);
      assert s == acc.(unmatched := acc.unmatched + [placeholders[0]]);
      ReconcileEmptyPool(placeholders[1..], s);
      assert acc.unmatched + [placeholders[0]] + placeholders[1..] == acc.unmatched + placeholders;
    }
  }

  /** With no parameters every placeholder is reported and the URL is returned unchanged. */
  lemma ExtractWithoutParams(url: string)
    ensures var r := ExtractPathParameters([], url);
      r.url == url && r.pathParams == [] && r.otherParams == [] && r.unmatched == Placeholders(url)
  {
    ReconcileEmptyPool(Placeholders(url), Extraction([], [], [], url, []));
  }

  lemma {:induction false} ReconcileNamesAgree(placeholders: seq<string>, acc: Extraction)
    requires AllWellFormed(acc.otherParams)
    requires |acc.pathParams| == |acc.matched|
    ensures var r := Reconcile(placeholders, acc);
      (forall i :: |acc.matched| <= i < |r.matched| ==> r.pathParams[i].name == r.matched[i]) ==> r.url == acc.url
    decreases |placeholders|
  {
    if placeholders != [] {
      var ph := placeholders[0];
      var s := Step(acc, ph);
      var r := Reconcile(placeholders[1..], s);
      assert r == Reconcile(placeholders, acc);
      ReconcileNamesAgree(placeholders[1..], s);
      if (forall i :: |acc.matched| <= i < |r.matched| ==> r.pathParams[i].name == r.matched[i]) {
        match FindPathVariable(acc.otherParams, ph)
        case None =>
        case Some(k) =>
          var n := |acc.matched|;
          assert r.matched[..|s.matched|] == s.matched;
          assert r.pathParams[..|s.pathParams|] == s.pathParams;
          assert r.matched[n] == s.matched[n] == ph;
          assert r.pathParams[n] == s.pathParams[n] == acc.otherParams[k];
      }
    }
  }

  /** When every matched parameter already bears its placeholder's name, the URL is returned unchanged. */
  lemma ExtractKeepsUrlWhenNamesAgree(params: seq<Param>, url: string)
    requires AllWellFormed(params)
    ensures var r := ExtractPathParameters(params, url);
      (forall i :: 0 <= i < |r.matched| ==> r.pathParams[i].name == r.matched[i]) ==> r.url == url
  {
    ReconcileNamesAgree(Placeholders(url), Extraction([], [], params, url, []));
  }
}

=== FILE: path_params_examples.dfy ===
/** Worked instances of path-variable reconciliation. */
module PathParamsExamples {
  import opened Wrappers
  import opened Text
  import opened Params
  import opened PathParams

  function PathVariableNamed(value: string): Annotation {
    Annotation(map["value" := ElementValue(value)])
  }

  lemma {:induction false} ScanSkipsPlainText(s: string, i: nat, j: nat)
    requires i <= j <= |s|
    requires forall k :: i <= k < j ==> s[k] != '{'
    ensures MatchesFrom(s, i) == MatchesFrom(s, j)
    decreases j - i
  {
    if i < j {
      assert MatchesFrom(s, i) == MatchesFrom(s, i + 1);
      ScanSkipsPlainText(s, i + 1, j);
    }
  }

  lemma {:induction false} CloseSkipsGroupText(s: string, i: nat, j: nat)
    requires i <= j <= |s|
    requires forall k :: i <= k < j ==> s[k] != '}' && s[k] != '\n'
    ensures CloseFrom(s, i) == CloseFrom(s, j)
    decreases j - i
  {
    if i < j {
      CloseSkipsGroupText(s, i + 1, j);
    }
  }

  /** A URL holding one placeholder, after text without `{`, has exactly that token rewritten. */
  lemma ReplaceLoneToken(a: string, token: string, newText: string)
    requires |token| > 0 && token[0] == '{' && '{' !in a
    ensures Replace(a + token, token, newText) == a + newText
  {
    ReplaceSkipsPrefix(a, token, token, newText);
    assert StartsWith(token, token);
    assert token[|token|..] == [];
    assert Replace(token, token, newText) == newText + Replace([], token, newText);
  }

  /** A URL whose only brace is one final `{placeholder}` has that one placeholder. */
  lemma LonePlaceholder(prefix: string, placeholder: string)
    requires '{' !in prefix
    requires |placeholder| >= 1 && '}' !in placeholder && '\n' !in placeholder
    ensures Placeholders(prefix + "{" + placeholder + "}") == [placeholder]
  {
    var url := prefix + "{" + placeholder + "}";
    var n := |prefix|;
    var close := n + 1 + |placeholder|;
    assert url[n] == '{' && url[n + 1] == placeholder[0] && url[close] == '}';
    assert url[n + 1..close] == placeholder;
    ScanSkipsPlainText(url, 0, n);
    CloseSkipsGroupText(url, n + 2, close);
    assert CloseFrom(url, close) == Some(close);
    assert MatchesFrom(url, close + 1) == [];
    assert MatchesFrom(url, n) == [Match(n, placeholder)];
  }

  /**
   A URL with one placeholder, served by a parameter through its
   PathVariable value under another name, is rewritten to that name and
   the parameter becomes the only path parameter.
   */
  lemma LonePlaceholderRewritten(prefix: string, placeholder: string, p: Param)
    requires '{' !in prefix
    requires |placeholder| >= 1 && '}' !in placeholder && '\n' !in placeholder
    requires PathVariableWellFormed(p) && PathVariableValue(p) == Some(placeholder) && p.name != placeholder
    ensures var r := ExtractPathParameters([p], prefix + "{" + placeholder + "}");
      && r.url == prefix + "{" + p.name + "}"
      && r.pathParams == [p]
      && r.otherParams == []
      && r.unmatched == []
  {
    var url := prefix + "{" + placeholder + "}";
    var token := "{" + placeholder + "}";
    var renamed := "{" + p.name + "}";
    assert url == prefix + token;
    assert prefix + renamed == prefix + "{" + p.name + "}";
    LonePlaceholder(prefix, placeholder);
    ReplaceLoneToken(prefix, token, renamed);
    var start := Extraction([], [], [p], url, []);
    StepTakesFirstMatch(start, placeholder, 0);
    var s := Step(start, placeholder);
    assert s.url == prefix + renamed;
    assert ExtractPathParameters([p], url) == Reconcile([placeholder], start);
    assert Reconcile([placeholder], start) == Reconcile([], s);
  }

  /**
   The docstring's example: `{resource-pool}` is served by the parameter
   `resource_pool` through its PathVariable value and is rewritten to its name.
   */
  lemma ResourcePoolExample()
    ensures var p := Param("resource_pool", map["PathVariable" := PathVariableNamed("resource-pool")]);
      var r := ExtractPathParameters([p], "/vcenter/resource-pool/{resource-pool}");
      && r.url == "/vcenter/resource-pool/{resource_pool}"
      && r.pathParams == [p]
      && r.otherParams == []
      && r.unmatched == []
  {
    var p := Param("resource_pool", map["PathVariable" := PathVariableNamed("resource-pool")]);
    ResourcePoolLiterals();
    LonePlaceholderRewritten("/vcenter/resource-pool/", "resource-pool", p);
  }

  lemma ResourcePoolLiterals()
    ensures '{' !in "/vcenter/resource-pool/"
    ensures "/vcenter/resource-pool/" + "{" + "resource-pool" + "}" == "/vcenter/resource-pool/{resource-pool}"
    ensures "/vcenter/resource-pool/" + "{" + "resource_pool" + "}" == "/vcenter/resource-pool/{resource_pool}"
    ensures "resource_pool" != "resource-pool"
  {
  }

  lemma CollisionPlaceholders()
    ensures Placeholders("{a}/{b}") == ["a", "b"]
  {
    var s := "{a}/{b}";
    assert s[0] == '{' && s[1] == 'a' && s[2] == '}' && s[3] == '/';
    assert s[4] == '{' && s[5] == 'b' && s[6] == '}';
    TwoPlaceholders(s);
    assert s[1..2] == "a" && s[5..6] == "b";
  }

  /** The scan of a seven-character URL shaped like `{a}/{b}`. */
  lemma TwoPlaceholders(s: string)
    requires |s| == 7 && s[0] == '{' && s[2] == '}' && s[3] == '/' && s[4] == '{' && s[6] == '}'
    requires s[1] !in "{}\n" && s[5] !in "{}\n"
    ensures Placeholders(s) == [s[1..2], s[5..6]]
  {
    assert CloseFrom(s, 6) == Some(6);
    assert MatchesFrom(s, 7) == [];
    assert MatchesFrom(s, 4) == [Match(4, s[5..6])];
    assert MatchesFrom(s, 3) == MatchesFrom(s, 4);
    assert CloseFrom(s, 2) == Some(2);
    assert MatchesFrom(s, 0) == [Match(0, s[1..2])] + MatchesFrom(s, 3);
  }

  lemma CollisionLiterals()
    ensures "{" + "a" + "}" == "{a}" && "{" + "b" + "}" == "{b}" && "{" + "c" + "}" == "{c}"
    ensures "a" != "b" && "b" != "c"
  {
  }

  lemma CollisionFirstRewrite()
    ensures Replace("{a}/{b}", "{a}", "{b}") == "{b}/{b}"
  {
    assert Replace("{b}", "{a}", "{b}") == "{b}";
    assert Replace("/{b}", "{a}", "{b}") == "/{b}";
  }

  lemma CollisionSecondRewrite()
    ensures Replace("{b}/{b}", "{b}", "{c}") == "{c}/{c}"
  {
    assert Replace("{b}", "{b}", "{c}") == "{c}";
    assert Replace("/{b}", "{b}", "{c}") == "/{c}";
  }

  const CollisionX := Param("b", map["PathVariable" := PathVariableNamed("a")])
  const CollisionY := Param("c", map["PathVariable" := PathVariableNamed("b")])

  lemma CollisionFirstStep()
    ensures Step(Extraction([], [], [CollisionX, CollisionY], "{a}/{b}", []), "a")
         == Extraction([CollisionX], ["a"], [CollisionY], "{b}/{b}", [])
  {
    CollisionFirstRewrite();
    CollisionSecondRewrite();
    CollisionLiterals();
    var start := Extraction([], [], [CollisionX, CollisionY], "{a}/{b}", []);
    StepTakesFirstMatch(start, "a", 0);
    assert [CollisionX, CollisionY][1..] == [CollisionY];
  }

  lemma CollisionSecondStep()
    ensures Step(Extraction([CollisionX], ["a"], [CollisionY], "{b}/{b}", []), "b")
         == Extraction([CollisionX, CollisionY], ["a", "b"], [], "{c}/{c}", [])
  {
    CollisionFirstRewrite();
    CollisionSecondRewrite();
    CollisionLiterals();
    assert IsParamPathVariable(CollisionY, "b");
    StepTakesFirstMatch(Extraction([CollisionX], ["a"], [CollisionY], "{b}/{b}", []), "b", 0);
    assert [CollisionY][..0] + [CollisionY][1..] == [];
    assert [CollisionX] + [CollisionY] == [CollisionX, CollisionY];
    assert ["a"] + ["b"] == ["a", "b"];
  }

  /**
   Rewrites act on the already rewritten URL, so they can merge: here
   `{a}` becomes `{b}`, and then both `{b}` become `{c}`. The result names
   only `c`, although the parameter `b` is a path parameter too; the
   placeholders of the returned URL need not correspond one to one with
   the returned path parameters.
   */
  lemma RewritesCanCollide()
    ensures var r := ExtractPathParameters([CollisionX, CollisionY], "{a}/{b}");
      && r.pathParams == [CollisionX, CollisionY]
      && r.otherParams == []
      && r.url == "{c}/{c}"
  {
    CollisionPlaceholders();
    CollisionFirstStep();
    CollisionSecondStep();
    var start := Extraction([], [], [CollisionX, CollisionY], "{a}/{b}", []);
    var s1 := Step(start, "a");
    var s2 := Step(s1, "b");
    assert ExtractPathParameters([CollisionX, CollisionY], "{a}/{b}") == Reconcile(["a", "b"], start);
    assert Reconcile(["a", "b"], start) == Reconcile(["b"], s1);
    assert Reconcile(["b"], s1) == Reconcile([], s2);
  }
}

=== FILE: seqs.dfy ===
/**
 Sequence helpers: order-preserving subsequences, Python's `list.remove`
 and a stable two-way split.
 */
module Seqs {

  /** `a` can be obtained from `b` by deleting elements, keeping the order of the rest. */
  ghost predicate IsSubsequence<T>(a: seq<T>, b: seq<T>)
    decreases |b|
  {
    || a == []
    || (b != [] && ((a[0] == b[0] && IsSubsequence(a[1..], b[1..])) || IsSubsequence(a, b[1..])))
  }

  lemma {:induction false} SubsequenceReflexive<T>(a: seq<T>)
    ensures IsSubsequence(a, a)
    decreases |a|
  {
    if a != [] {
      SubsequenceReflexive(a[1..]);
    }
  }

  lemma {:induction false} SubsequenceTransitive<T>(a: seq<T>, b: seq<T>, c: seq<T>)
    requires IsSubsequence(a, b) && IsSubsequence(b, c)
    ensures IsSubsequence(a, c)
    decreases |c|
  {
    if a == [] {
    } else if b == [] {
    } else {
      assert c != [];
      if b[0] == c[0] && IsSubsequence(b[1..], c[1..]) {
        if a[0] == b[0] && IsSubsequence(a[1..], b[1..]) {
          SubsequenceTransitive(a[1..], b[1..], c[1..]);
        } else {
          SubsequenceTransitive(a, b[1..], c[1..]);
        }
      } else {
        SubsequenceTransitive(a, b, c[1..]);
      }
    }
  }

  lemma {:induction false} SubsequenceAppendRight<T>(a: seq<T>, b: seq<T>, x: T)
    requires IsSubsequence(a, b)
    ensures IsSubsequence(a, b + [x])
    decreases |b|
  {
    if a != [] {
      assert (b + [x])[1..] == b[1..] + [x];
      if a[0] == b[0] && IsSubsequence(a[1..], b[1..]) {
        SubsequenceAppendRight(a[1..], b[1..], x);
      } else {
        SubsequenceAppendRight(a, b[1..], x);
      }
    }
  }

  lemma {:induction false} SubsequenceAppendBoth<T>(a: seq<T>, b: seq<T>, x: T)
    requires IsSubsequence(a, b)
    ensures IsSubsequence(a + [x], b + [x])
    decreases |b|
  {
    if a == [] {
      if b == [] {
        SubsequenceReflexive([x]);
      } else {
        assert (b + [x])[1..] == b[1..] + [x];
        SubsequenceAppendBoth(a, b[1..], x);
      }
    } else {
      assert (b + [x])[1..] == b[1..] + [x];
      assert (a + [x])[1..] == a[1..] + [x];
      if a[0] == b[0] && IsSubsequence(a[1..], b[1..]) {
        SubsequenceAppendBoth(a[1..], b[1..], x);
      } else {
        SubsequenceAppendBoth(a, b[1..], x);
      }
    }
  }

  /** Moving the head of the right operand of a concatenation to the left. */
  lemma ConcatShift<T>(a: seq<T>, b: seq<T>)
    requires b != []
    ensures a + b == (a + [b[0]]) + b[1..]
  {
    assert b == [b[0]] + b[1..];
  }

  /** Deleting the element at one index removes one copy of it and nothing else. */
  lemma DeleteAtMultiset<T>(s: seq<T>, k: nat)
    requires k < |s|
    ensures multiset(s[..k] + s[k+1..]) + multiset{s[k]} == multiset(s)
    ensures forall x <- s[..k] + s[k+1..] :: x in s
  {
    assert s == s[..k] + [s[k]] + s[k+1..];
  }

  /** Deleting the element at one index keeps the rest in order. */
  lemma {:induction false} DeleteAtIsSubsequence<T>(s: seq<T>, k: nat)
    requires k < |s|
    ensures IsSubsequence(s[..k] + s[k+1..], s)
    decreases k
  {
    if k == 0 {
      assert s[..0] + s[1..] == s[1..];
      SubsequenceReflexive(s[1..]);
    } else {
      var rest := s[1..][..k-1] + s[1..][k..];
      DeleteAtIsSubsequence(s[1..], k - 1);
      assert s[..k] + s[k+1..] == [s[0]] + rest;
      assert ([s[0]] + rest)[1..] == rest;
    }
  }

  /**
   Python's `list.remove(x)`: deletes the first element equal to `x`
   (the source never calls it with an absent element; then the list is kept).
   */
  function RemoveFirst<T(==)>(s: seq<T>, x: T): (r: seq<T>)
    ensures x !in s ==> r == s
    ensures |r| == if x in s then |s| - 1 else |s|
    ensures forall y <- r :: y in s
  {
    if s == [] then []
    else if s[0] == x then s[1..]
    else [s[0]] + RemoveFirst(s[1..], x)
  }

  lemma {:induction false} RemoveFirstMultiset<T>(s: seq<T>, x: T)
    requires x in s
    ensures multiset(RemoveFirst(s, x)) == multiset(s) - multiset{x}
  {
    assert s == [s[0]] + s[1..];
    if s[0] != x {
      RemoveFirstMultiset(s[1..], x);
    }
  }

  /** Removing the first occurrence of `s[k]` deletes index `k` when no earlier element equals it. */
  lemma {:induction false} RemoveFirstAt<T>(s: seq<T>, k: nat)
    requires k < |s|
    requires forall j :: 0 <= j < k ==> s[j] != s[k]
    ensures RemoveFirst(s, s[k]) == s[..k] + s[k+1..]
    decreases k
  {
    if k > 0 {
      var t := s[1..];
      assert t[k-1] == s[k];
      RemoveFirstAt(t, k - 1);
      assert RemoveFirst(s, s[k]) == [s[0]] + RemoveFirst(t, s[k]);
      assert s[..k] + s[k+1..] == [s[0]] + (t[..k-1] + t[k..]);
    }
  }

  /**
   The stable split of `s` by `f`: the elements satisfying `f` and those
   that do not, each in their original order.
   */
  function Partition<T>(s: seq<T>, f: T -> bool): (r: (seq<T>, seq<T>))
    ensures multiset(r.0) + multiset(r.1) == multiset(s)
    ensures forall x <- r.0 :: f(x)
    ensures forall x <- r.1 :: !f(x)
    ensures IsSubsequence(r.0, s) && IsSubsequence(r.1, s)
  {
    if s == [] then ([], [])
    else
      var (yes, no) := Partition(s[1..], f);
      assert s == [s[0]] + s[1..];
      if f(s[0]) then
        assert ([s[0]] + yes)[1..] == yes;
        ([s[0]] + yes, no)
      else
        assert ([s[0]] + no)[1..] == no;
        (yes, [s[0]] + no)
  }
}

=== FILE: string_utils.dfy ===
/**
 String helpers of the generator: appending a query parameter to a URL,
 removing curly braces, and camel-casing a dotted or underscored name.
 */
module StringUtils {
  import opened Wrappers
  import opened Text

  // ---------------------------------------------------------------------
  // add_query_param
  // ---------------------------------------------------------------------

  /**
   `add_query_param` as written: the branch for a URL ending in '?'
   compares the index of '?' with the length of the URL, which no index
   of a character equals, so that branch never runs and such a URL gets
   "?&" followed by the parameter.
   */
  function AddQueryParamAsWritten(url: string, param: string): (r: string)
    ensures '?' !in url ==> r == url + "?" + param
    ensures '?' in url && HasQueryParam(url, param) ==> r == url
    ensures '?' in url && !HasQueryParam(url, param) ==> r == url + "&" + param
    ensures StartsWith(r, url)
  {
    match FindChar(url, '?')
    case None => url + "?" + param
    case Some(q) =>
      if q == |url| then url + param
      else if Contains(url[q + 1..], param) then url
      else url + "&" + param
  }

  /** The evidently intended test: the '?' is the last character of the URL. */
  function AddQueryParam(url: string, param: string): (r: string)
    ensures '?' !in url ==> r == url + "?" + param
    ensures |url| > 0 && url[|url| - 1] == '?' && '?' !in url[..|url| - 1] ==> r == url + param
    ensures StartsWith(r, url)
    ensures HasQueryParam(r, param)
  {
    match FindChar(url, '?')
    case None =>
      assert (url + "?" + param)[|url|] == '?';
      QueryOfAppended(url, "?", param);
      url + "?" + param
    case Some(q) =>
      if q == |url| - 1 then
        QueryOfAppended(url, "", param);
        url + param
      else if Contains(url[q + 1..], param) then url
      else
        QueryOfAppended(url, "&", param);
        url + "&" + param
  }

  /**
   With a '?' before the last character, the URL is kept when its query
   part already holds the parameter, and gets "&" and the parameter otherwise.
   */
  lemma AddQueryParamAfterQuery(url: string, param: string, q: nat)
    requires FindChar(url, '?') == Some(q) && q < |url| - 1
    ensures HasQueryParam(url, param) ==> AddQueryParam(url, param) == url
    ensures !HasQueryParam(url, param) ==> AddQueryParam(url, param) == url + "&" + param
  {
  }

  /** The URL has a query part (the text after its first '?') that contains `param`. */
  predicate HasQueryParam(url: string, param: string) {
    match FindChar(url, '?')
    case None => false
    case Some(q) => Contains(url[q + 1..], param)
  }

  /** Appending text keeps the first '?' of a URL where it is. */
  lemma FindCharOfExtension(url: string, c: char, tail: string)
    requires FindChar(url, c).Some?
    ensures FindChar(url + tail, c) == FindChar(url, c)
  {
    var q := FindChar(url, c).value;
    assert (url + tail)[..q] == url[..q];
    FindCharIsFirst(url + tail, c, q);
  }

  /**
   When the first '?' of `url + glue + param` lies in `url`, or is the
   last character of `url + glue`, the query part contains `param`.
   */
  lemma QueryOfAppended(url: string, glue: string, param: string)
    requires FindChar(url + glue, '?').Some?
    ensures HasQueryParam(url + glue + param, param)
  {
    var q := FindChar(url + glue, '?').value;
    FindCharOfExtension(url + glue, '?', param);
    assert (url + glue + param)[q + 1..] == (url + glue)[q + 1..] + param;
    ContainsSuffix((url + glue)[q + 1..], param);
  }

  /** Adding a parameter a second time changes nothing. */
  lemma AddQueryParamIdempotent(url: string, param: string)
    ensures AddQueryParam(AddQueryParam(url, param), param) == AddQueryParam(url, param)
  {
    match FindChar(url, '?')
    case None => IdempotentWithoutQuery(url, param);
    case Some(q) => IdempotentWithQuery(url, param, q);
  }

  lemma IdempotentWithoutQuery(url: string, param: string)
    requires FindChar(url, '?').None?
    ensures AddQueryParam(AddQueryParam(url, param), param) == AddQueryParam(url, param)
  {
    var r := url + "?" + param;
    assert r[..|url|] == url && r[|url|] == '?';
    FindCharIsFirst(r, '?', |url|);
    assert r[|url| + 1..] == param;
    assert StartsWith(param, param);
    AlreadyAdded(r, param, |url|);
  }

  lemma IdempotentWithQuery(url: string, param: string, q: nat)
    requires FindChar(url, '?') == Some(q)
    ensures AddQueryParam(AddQueryParam(url, param), param) == AddQueryParam(url, param)
  {
    if q == |url| - 1 {
      IdempotentAfterQuestionMark(url, param, q);
    } else if !Contains(url[q + 1..], param) {
      IdempotentAfterAmpersand(url, param, q);
    } else {
      AlreadyAdded(url, param, q);
    }
  }

  lemma IdempotentAfterQuestionMark(url: string, param: string, q: nat)
    requires FindChar(url, '?') == Some(q) && q == |url| - 1
    ensures AddQueryParam(url + param, param) == url + param
  {
    AppendedKeepsQuery(url, "", param, q);
    assert url + "" + param == url + param;
    AlreadyAdded(url + param, param, q);
  }

  lemma IdempotentAfterAmpersand(url: string, param: string, q: nat)
    requires FindChar(url, '?') == Some(q) && q != |url| - 1
    ensures AddQueryParam(url + "&" + param, param) == url + "&" + param
  {
    AppendedKeepsQuery(url, "&", param, q);
    AlreadyAdded(url + "&" + param, param, q);
  }

  /** Appending `glue + param` keeps the first '?' and puts `param` into the query part. */
  lemma AppendedKeepsQuery(url: string, glue: string, param: string, q: nat)
    requires FindChar(url, '?') == Some(q)
    ensures FindChar(url + glue + param, '?') == Some(q)
    ensures Contains((url + glue + param)[q + 1..], param)
  {
    var r := url + glue + param;
    FindCharOfExtension(url, '?', glue + param);
    assert url + (glue + param) == r;
    assert r[q + 1..] == (url[q + 1..] + glue) + param;
    ContainsSuffix(url[q + 1..] + glue, param);
  }

  /** A URL whose query part already holds the parameter, or that ends in '?' when the parameter is empty, is kept. */
  lemma AlreadyAdded(url: string, param: string, q: nat)
    requires FindChar(url, '?') == Some(q)
    requires q == |url| - 1 ==> param == ""
    requires q != |url| - 1 ==> Contains(url[q + 1..], param)
    ensures AddQueryParam(url, param) == url
  {
  }

  /** The code as written also adds a parameter only once. */
  lemma AsWrittenIdempotent(url: string, param: string)
    ensures var r := AddQueryParamAsWritten(url, param);
            AddQueryParamAsWritten(r, param) == r
  {
    match FindChar(url, '?')
    case None =>
      var r := url + "?" + param;
      assert r[..|url|] == url && r[|url|] == '?';
      FindCharIsFirst(r, '?', |url|);
      assert r[|url| + 1..] == param;
      assert StartsWith(param, param);
    case Some(q) =>
      if !Contains(url[q + 1..], param) {
        AppendedKeepsQuery(url, "&", param, q);
      }
  }

  /**
   The as-written function, wherever its dead branch is not the one that
   would matter, agrees with the corrected one.
   */
  lemma AsWrittenAgreesUnlessQuestionMarkLast(url: string, param: string)
    requires FindChar(url, '?') != Some(|url| - 1)
    ensures AddQueryParamAsWritten(url, param) == AddQueryParam(url, param)
  {
    match FindChar(url, '?')
    case None =>
    case Some(q) =>
      assert q < |url| && q != |url| - 1;
  }

  /** "/x?" with "a=1": the source produces "/x?&a=1"; the intended result is "/x?a=1". */
  lemma AsWrittenQuestionMarkLast()
    ensures AddQueryParamAsWritten("/x?", "a=1") == "/x?&a=1"
    ensures AddQueryParam("/x?", "a=1") == "/x?a=1"
  {
    var url := "/x?";
    assert url[2] == '?' && '?' !in url[..2];
    FindCharIsFirst(url, '?', 2);
    assert url[3..] == [];
    assert !Contains(url[3..], "a=1");
  }

  // ---------------------------------------------------------------------
  // remove_curly_braces
  // ---------------------------------------------------------------------

  /** The string with every occurrence of `c` deleted. */
  function DropChar(s: string, c: char): (r: string)
    ensures c !in r
    ensures |r| <= |s|
    decreases |s|
  {
    if s == [] then []
    else if s[0] == c then DropChar(s[1..], c)
    else [s[0]] + DropChar(s[1..], c)
  }

  /** Replacing a one-character text by nothing deletes that character. */
  lemma {:induction false} ReplaceCharByNothing(s: string, c: char)
    ensures Replace(s, [c], "") == DropChar(s, c)
    decreases |s|
  {
    if s != [] {
      ReplaceCharByNothing(s[1..], c);
      if s[0] == c {
        assert StartsWith(s, [c]);
      } else {
        assert !StartsWith(s, [c]);
      }
    }
  }

  /** `remove_curly_braces`: the name with every '{' and '}' deleted. */
  function RemoveCurlyBraces(name: string): (r: string)
    ensures r == DropChar(DropChar(name, '{'), '}')
    ensures '{' !in r && '}' !in r
  {
    var withoutOpen := if '{' in name then Replace(name, "{", "") else name;
    ReplaceCharByNothing(name, '{');
    DropAbsent(name, '{');
    ReplaceCharByNothing(withoutOpen, '}');
    DropAbsent(withoutOpen, '}');
    DropKeepsAbsent(DropChar(name, '{'), '}', '{');
    if '}' in withoutOpen then Replace(withoutOpen, "}", "") else withoutOpen
  }

  /** Deleting a character that does not occur changes nothing. */
  lemma {:induction false} DropAbsent(s: string, c: char)
    ensures c !in s ==> DropChar(s, c) == s
    decreases |s|
  {
    if s != [] && c !in s {
      DropAbsent(s[1..], c);
      assert [s[0]] + s[1..] == s;
    }
  }

  /** Deleting one character does not introduce another. */
  lemma {:induction false} DropKeepsAbsent(s: string, c: char, d: char)
    ensures d !in s ==> d !in DropChar(s, c)
    decreases |s|
  {
    if s != [] {
      DropKeepsAbsent(s[1..], c, d);
    }
  }

  /** Removing the braces a second time changes nothing. */
  lemma RemoveCurlyBracesIdempotent(name: string)
    ensures RemoveCurlyBraces(RemoveCurlyBraces(name)) == RemoveCurlyBraces(name)
  {
    var r := RemoveCurlyBraces(name);
    DropAbsent(r, '{');
    DropAbsent(r, '}');
  }

  // ---------------------------------------------------------------------
  // get_str_camel_case
  // ---------------------------------------------------------------------

  /**
   `re.split` on an alternation of single literal characters: the pieces
   between the delimiter characters, empty pieces included.
   */
  function SplitAny(s: string, delims: set<char>): (parts: seq<string>)
    ensures |parts| == CountDelimiters(s, delims) + 1
    ensures forall k :: 0 <= k < |parts| ==> forall c <- parts[k] :: c !in delims
    decreases |s|
  {
    if s == [] then [""]
    else if s[0] in delims then [""] + SplitAny(s[1..], delims)
    else
      var rest := SplitAny(s[1..], delims);
      [[s[0]] + rest[0]] + rest[1..]
  }

  /** `word[:1].upper() + word[1:]`. */
  function Capitalize(word: string): (r: string)
    ensures |r| == |word|
    ensures |word| > 0 ==> r[0] == UpperChar(word[0])
    ensures forall i :: 0 < i < |word| ==> r[i] == word[i]
  {
    if word == [] then [] else [UpperChar(word[0])] + word[1..]
  }

  /** `''.join` of the capitalised words. */
  function CamelJoin(words: seq<string>): string {
    if words == [] then [] else Capitalize(words[0]) + CamelJoin(words[1..])
  }

  /**
   The delimiters `get_str_camel_case` can be given: at least one, each a
   single character that is not an ASCII letter or digit, which the
   escaped alternation then matches literally.
   */
  predicate ValidDelimiters(delimiters: seq<string>) {
    |delimiters| >= 1 && forall d <- delimiters :: |d| == 1 && !IsAsciiAlphanumeric(d[0])
  }

  function DelimiterChars(delimiters: seq<string>): (r: set<char>)
    requires ValidDelimiters(delimiters)
    ensures forall c <- r :: !IsAsciiAlphanumeric(c)
  {
    set d <- delimiters :: d[0]
  }

  /** `get_str_camel_case(string, *delimiters)`. */
  function GetStrCamelCase(s: string, delimiters: seq<string>): (r: string)
    requires ValidDelimiters(delimiters)
    ensures r == CamelChars(s, DelimiterChars(delimiters), true)
  {
    var parts := SplitAny(s, DelimiterChars(delimiters));
    CamelCharsIsCamelJoin(s, DelimiterChars(delimiters), true);
    assert CamelJoin(parts) == Capitalize(parts[0]) + CamelJoin(parts[1..]);
    CamelJoin(parts)
  }

  /**
   The character-by-character reading of camel-casing: delimiters are
   dropped, and the character after a delimiter, or the first one, is
   upper-cased.
   */
  function CamelChars(s: string, delims: set<char>, capitalizeNext: bool): (r: string)
    decreases |s|
  {
    if s == [] then []
    else if s[0] in delims then CamelChars(s[1..], delims, true)
    else [if capitalizeNext then UpperChar(s[0]) else s[0]] + CamelChars(s[1..], delims, false)
  }

  /**
   The first piece as the camel-casing leaves it: capitalised, or kept as
   it is when it continues a word begun before this part of the text.
   */
  function LeadingWord(word: string, capitalize: bool): string {
    if capitalize then Capitalize(word) else word
  }

  /** Splitting then capitalising agrees with the character-by-character reading. */
  lemma {:induction false} CamelCharsIsCamelJoin(s: string, delims: set<char>, capitalizeNext: bool)
    ensures var parts := SplitAny(s, delims);
            CamelChars(s, delims, capitalizeNext) == LeadingWord(parts[0], capitalizeNext) + CamelJoin(parts[1..])
    decreases |s|
  {
    if s != [] {
      var parts := SplitAny(s, delims);
      var rest := SplitAny(s[1..], delims);
      if s[0] in delims {
        CamelCharsIsCamelJoin(s[1..], delims, true);
        assert parts[1..] == rest;
      } else {
        CamelCharsIsCamelJoin(s[1..], delims, false);
        assert parts[1..] == rest[1..];
      }
    }
  }

  /** The number of delimiter characters in `s`. */
  function CountDelimiters(s: string, delims: set<char>): (n: nat)
    ensures n <= |s|
    decreases |s|
  {
    if s == [] then 0
    else (if s[0] in delims then 1 else 0) + CountDelimiters(s[1..], delims)
  }

  /** No delimiter is left in the result, and only the delimiters are dropped. */
  lemma {:induction false} CamelCharsDropsDelimiters(s: string, delims: set<char>, capitalizeNext: bool)
    requires forall c <- delims :: !IsAsciiAlphanumeric(c)
    ensures forall c <- CamelChars(s, delims, capitalizeNext) :: c !in delims
    ensures |CamelChars(s, delims, capitalizeNext)| == |s| - CountDelimiters(s, delims)
    decreases |s|
  {
    if s != [] {
      if s[0] in delims {
        CamelCharsDropsDelimiters(s[1..], delims, true);
      } else {
        CamelCharsDropsDelimiters(s[1..], delims, false);
        assert UpperChar(s[0]) !in delims by {
          if 'a' <= s[0] <= 'z' {
            assert IsAsciiAlphanumeric(UpperChar(s[0]));
          }
        }
      }
    }
  }
}

=== FILE: text.dfy ===
/**
 Python `str` operations on `seq<char>`, with Python's semantics for the
 cases the model meets: `startswith`, `endswith`, `in`, `find` of one
 character, `replace`, `split`, `join`, and ASCII `lower` / `upper`.
 */
module Text {
  import opened Wrappers

  predicate StartsWith(s: string, prefix: string) {
    |prefix| <= |s| && s[..|prefix|] == prefix
  }

  predicate EndsWith(s: string, suffix: string) {
    |suffix| <= |s| && s[|s| - |suffix|..] == suffix
  }

  /** Python `t in s`, equivalently `s.find(t) > -1`; the empty string occurs everywhere. */
  predicate Contains(s: string, t: string)
    decreases |s|
  {
    StartsWith(s, t) || (|s| > 0 && Contains(s[1..], t))
  }

  lemma {:induction false} ContainsSuffix(a: string, b: string)
    ensures Contains(a + b, b)
    decreases |a|
  {
    if a != [] {
      assert (a + b)[1..] == a[1..] + b;
      ContainsSuffix(a[1..], b);
    }
  }

  /** Python `s.find(c)` for one character: the first index holding `c`, or None for -1. */
  function FindChar(s: string, c: char): (r: Option<nat>)
    ensures r.Some? ==> r.value < |s| && s[r.value] == c && c !in s[..r.value]
    ensures r.None? <==> c !in s
  {
    if s == [] then None
    else if s[0] == c then Some(0)
    else
      match FindChar(s[1..], c)
      case None => None
      case Some(i) =>
        assert s[..i + 1] == [s[0]] + s[1..][..i];
        Some(i + 1)
  }

  /** The first occurrence is unique: any index holding `c` with no earlier `c` is it. */
  lemma FindCharIsFirst(s: string, c: char, i: nat)
    requires i < |s| && s[i] == c && c !in s[..i]
    ensures FindChar(s, c) == Some(i)
  {
  }

  /**
   Python `s.replace(old, new)`: every non-overlapping occurrence of `old`,
   found left to right, is replaced by `new`. An empty `old` matches
   before every character and at the end, as in Python.
   */
  function Replace(s: string, oldText: string, newText: string): (r: string)
    ensures |oldText| > 0 && |newText| == |oldText| ==> |r| == |s|
    decreases |s|
  {
    if |oldText| == 0 then
      if s == [] then newText else newText + [s[0]] + Replace(s[1..], oldText, newText)
    else if StartsWith(s, oldText) then
      assert s == oldText + s[|oldText|..];
      newText + Replace(s[|oldText|..], oldText, newText)
    else if s == [] then []
    else
      assert s == [s[0]] + s[1..];
      [s[0]] + Replace(s[1..], oldText, newText)
  }

  /** Replacing a text by itself changes nothing. */
  lemma {:induction false} ReplaceSameText(s: string, t: string)
    ensures Replace(s, t, t) == s
    decreases |s|
  {
    if |t| == 0 {
      if s != [] {
        ReplaceSameText(s[1..], t);
        assert s == [s[0]] + s[1..];
      }
    } else if StartsWith(s, t) {
      ReplaceSameText(s[|t|..], t);
      assert s == t + s[|t|..];
    } else if s != [] {
      ReplaceSameText(s[1..], t);
      assert s == [s[0]] + s[1..];
    }
  }

  /** A string in which `old` does not occur is returned unchanged. */
  lemma {:induction false} ReplaceAbsentIsIdentity(s: string, oldText: string, newText: string)
    requires |oldText| > 0 && !Contains(s, oldText)
    ensures Replace(s, oldText, newText) == s
    decreases |s|
  {
    if s != [] {
      ReplaceAbsentIsIdentity(s[1..], oldText, newText);
      assert s == [s[0]] + s[1..];
    }
  }

  /** A first character that cannot start an occurrence is copied through. */
  lemma ReplaceCopiesHead(s: string, oldText: string, newText: string)
    requires |oldText| > 0 && s != [] && s[0] != oldText[0]
    ensures Replace(s, oldText, newText) == [s[0]] + Replace(s[1..], oldText, newText)
  {
    assert !StartsWith(s, oldText) by {
      if |oldText| <= |s| {
        assert s[..|oldText|][0] == s[0];
      }
    }
  }

  /** The first `i` characters, none of which can start an occurrence, are copied through. */
  lemma {:induction false} ReplaceSkipsFrom(s: string, i: nat, oldText: string, newText: string)
    requires |oldText| > 0 && i <= |s| && oldText[0] !in s[..i]
    ensures Replace(s, oldText, newText) == s[..i] + Replace(s[i..], oldText, newText)
    decreases i
  {
    if i > 0 {
      var t := s[1..];
      assert s[0] == s[..i][0];
      ReplaceCopiesHead(s, oldText, newText);
      assert t[..i - 1] == s[1..i] && s[1..i] == s[..i][1..];
      ReplaceSkipsFrom(t, i - 1, oldText, newText);
      assert t[i - 1..] == s[i..];
      assert s[..i] == [s[0]] + t[..i - 1];
    } else {
      assert s[..0] == [] && s[0..] == s;
    }
  }

  /** Text that cannot start an occurrence is copied through unchanged. */
  lemma ReplaceSkipsPrefix(a: string, b: string, oldText: string, newText: string)
    requires |oldText| > 0 && oldText[0] !in a
    ensures Replace(a + b, oldText, newText) == a + Replace(b, oldText, newText)
  {
    var s := a + b;
    assert s[..|a|] == a && s[|a|..] == b;
    ReplaceSkipsFrom(s, |a|, oldText, newText);
  }

  /** Python `s.split(sep)` for a non-empty separator (Python refuses an empty one). */
  function Split(s: string, sep: string): (parts: seq<string>)
    requires |sep| > 0
    ensures |parts| >= 1
    decreases |s|
  {
    if StartsWith(s, sep) then [""] + Split(s[|sep|..], sep)
    else if s == [] then [""]
    else
      var rest := Split(s[1..], sep);
      [[s[0]] + rest[0]] + rest[1..]
  }

  /** Splitting on one character gives one piece more than the character occurs. */
  lemma {:induction false} SplitCount(s: string, c: char)
    ensures |Split(s, [c])| == multiset(s)[c] + 1
    decreases |s|
  {
    if s != [] {
      assert s == [s[0]] + s[1..];
      SplitCount(s[1..], c);
      if s[0] == c {
        assert StartsWith(s, [c]);
        assert s[|[c]|..] == s[1..];
      } else {
        assert !StartsWith(s, [c]);
      }
    }
  }

  /** Python `sep.join(parts)`. */
  function Join(sep: string, parts: seq<string>): (r: string)
    ensures |parts| > 0 ==> StartsWith(r, parts[0])
  {
    if |parts| == 0 then ""
    else if |parts| == 1 then parts[0]
    else parts[0] + sep + Join(sep, parts[1..])
  }

  lemma JoinHeadChar(sep: string, c: char, x: string, ys: seq<string>)
    ensures Join(sep, [[c] + x] + ys) == [c] + Join(sep, [x] + ys)
  {
    if |ys| > 0 {
      assert ([[c] + x] + ys)[1..] == ys;
      assert ([x] + ys)[1..] == ys;
    }
  }

  /** `s.replace(old, new) == new.join(s.split(old))`: the two Python definitions agree. */
  lemma {:induction false} ReplaceIsJoinOfSplit(s: string, oldText: string, newText: string)
    requires |oldText| > 0
    ensures Replace(s, oldText, newText) == Join(newText, Split(s, oldText))
    decreases |s|
  {
    if StartsWith(s, oldText) {
      var tail := s[|oldText|..];
      var rest := Split(tail, oldText);
      assert Replace(s, oldText, newText) == newText + Replace(tail, oldText, newText);
      assert Split(s, oldText) == [""] + rest;
      ReplaceIsJoinOfSplit(tail, oldText, newText);
      assert ([""] + rest)[1..] == rest;
      assert Join(newText, [""] + rest) == "" + newText + Join(newText, rest);
    } else if s != [] {
      var rest := Split(s[1..], oldText);
      assert Replace(s, oldText, newText) == [s[0]] + Replace(s[1..], oldText, newText);
      assert Split(s, oldText) == [[s[0]] + rest[0]] + rest[1..];
      ReplaceIsJoinOfSplit(s[1..], oldText, newText);
      assert rest == [rest[0]] + rest[1..];
      JoinHeadChar(newText, s[0], rest[0], rest[1..]);
    }
  }

  /** Joining the pieces of a split with the same separator gives back the string. */
  lemma SplitJoinRoundTrip(s: string, sep: string)
    requires |sep| > 0
    ensures Join(sep, Split(s, sep)) == s
  {
    ReplaceIsJoinOfSplit(s, sep, sep);
    ReplaceSameText(s, sep);
  }

  /** Splitting on one character: a leading segment free of it becomes the first piece. */
  lemma {:induction false} SplitLeadingSegment(x: string, c: char, y: string)
    requires c !in x
    ensures Split(x + [c] + y, [c]) == [x] + Split(y, [c])
    decreases |x|
  {
    var s := x + [c] + y;
    if x == [] {
      assert s == [c] + y;
      assert s[1..] == y;
    } else {
      assert s[0] == x[0] && s[0] != c;
      assert s[1..] == x[1..] + [c] + y;
      SplitLeadingSegment(x[1..], c, y);
      assert [s[0]] + x[1..] == x;
    }
  }

  function LowerChar(c: char): char {
    if 'A' <= c <= 'Z' then (c as int + 32) as char else c
  }

  function UpperChar(c: char): char {
    if 'a' <= c <= 'z' then (c as int - 32) as char else c
  }

  /** Python `s.lower()` restricted to ASCII letters; other characters are kept. */
  function Lower(s: string): (r: string)
    ensures |r| == |s|
    ensures forall i :: 0 <= i < |s| ==> r[i] == LowerChar(s[i])
  {
    seq(|s|, i requires 0 <= i < |s| => LowerChar(s[i]))
  }

  lemma LowerIdempotent(s: string)
    ensures Lower(Lower(s)) == Lower(s)
  {
  }

  predicate IsAsciiAlphanumeric(c: char) {
    ('a' <= c <= 'z') || ('A' <= c <= 'Z') || ('0' <= c <= '9')
  }
}

=== FILE: type_map.dfy ===
/**
 Metamodel primitive type names to Swagger (type, format) pairs, and the
 built-in type test. Both compare names case-insensitively (ASCII).
 */
module TypeMap {
  import opened Wrappers
  import opened Text

  /** The ten metamodel names with a Swagger translation, keyed in lower case. */
  const SwaggerTypeTable: map<string, (string, Option<string>)> := map[
    "date_time" := ("string", Some("date-time")),
    "secret" := ("string", Some("password")),
    "any_error" := ("string", None),
    "opaque" := ("object", None),
    "dynamic_structure" := ("object", None),
    "uri" := ("string", Some("uri")),
    "id" := ("string", None),
    "long" := ("integer", Some("int64")),
    "double" := ("number", Some("double")),
    "binary" := ("string", Some("binary"))]

  /**
   `metamodel_to_swagger_type_converter`: the Swagger type and optional
   format of a metamodel type name. A name outside the table is returned
   lower-cased, with no format.
   */
  function MetamodelToSwaggerType(inputType: string): (r: (string, Option<string>))
    ensures Lower(inputType) in SwaggerTypeTable ==> r == SwaggerTypeTable[Lower(inputType)]
    ensures Lower(inputType) !in SwaggerTypeTable ==> r == (Lower(inputType), None)
  {
    var t := Lower(inputType);
    if t == "date_time" then ("string", Some("date-time"))
    else if t == "secret" then ("string", Some("password"))
    else if t == "any_error" then ("string", None)
    else if t == "opaque" then ("object", None)
    else if t == "dynamic_structure" then ("object", None)
    else if t == "uri" then ("string", Some("uri"))
    else if t == "id" then ("string", None)
    else if t == "long" then ("integer", Some("int64"))
    else if t == "double" then ("number", Some("double"))
    else if t == "binary" then ("string", Some("binary"))
    else (t, None)
  }

  /** Names differing only in ASCII letter case translate alike. */
  lemma SwaggerTypeIgnoresCase(a: string, b: string)
    requires Lower(a) == Lower(b)
    ensures MetamodelToSwaggerType(a) == MetamodelToSwaggerType(b)
  {
  }

  /** Translating the lower-cased name gives the same pair. */
  lemma SwaggerTypeOfLowered(t: string)
    ensures MetamodelToSwaggerType(Lower(t)) == MetamodelToSwaggerType(t)
  {
    LowerIdempotent(t);
  }

  lemma SwaggerTypeExamples()
    ensures MetamodelToSwaggerType("LONG") == ("integer", Some("int64"))
    ensures MetamodelToSwaggerType("Date_Time") == ("string", Some("date-time"))
    ensures MetamodelToSwaggerType("custom_struct") == ("custom_struct", None)
    ensures MetamodelToSwaggerType("MyStruct") == ("mystruct", None)
  {
    assert Lower("LONG") == "long";
    assert Lower("Date_Time") == "date_time";
    assert Lower("custom_struct") == "custom_struct";
    assert Lower("MyStruct") == "mystruct";
  }

  /** The twelve built-in type names, in lower case. */
  const BuiltinTypes: set<string> := {
    "binary", "boolean", "datetime", "double", "dynamicstructure", "exception",
    "id", "long", "opaque", "secret", "string", "uri"}

  /**
   `is_type_builtin`: whether the lower-cased name is one of the built-in
   names, that is, whether the name equals one of them up to ASCII case.
   */
  function IsTypeBuiltin(typeName: string): (r: bool)
    ensures r <==> exists b <- BuiltinTypes :: Lower(b) == Lower(typeName)
  {
    BuiltinNamesAreLowerCase();
    LowerIdempotent(typeName);
    Lower(typeName) in BuiltinTypes
  }

  lemma BuiltinNamesAreLowerCase()
    ensures forall b <- BuiltinTypes :: Lower(b) == b
  {
    forall b <- BuiltinTypes ensures Lower(b) == b {
      assert forall i :: 0 <= i < |b| ==> !('A' <= b[i] <= 'Z');
    }
  }

  lemma BuiltinExamples()
    ensures IsTypeBuiltin("DateTime") && IsTypeBuiltin("LONG") && IsTypeBuiltin("Exception")
    ensures !IsTypeBuiltin("date_time") && !IsTypeBuiltin("dynamic_structure")
  {
    assert Lower("DateTime") == "datetime";
    assert Lower("LONG") == "long";
    assert Lower("Exception") == "exception";
    assert Lower("date_time") == "date_time";
    assert Lower("dynamic_structure") == "dynamic_structure";
  }
}

=== FILE: wrappers.dfy ===
/** The optional value used wherever the source returns or accepts `None`. */
module Wrappers {

  datatype Option<+T> = None | Some(value: T)
}
